=== FILE: README.md ===
# Voice-recording bot core in Dafny

This project models the decision and bookkeeping logic of `app.py`, a Discord
bot that joins voice channels where whitelisted users are talking, records
them in chunks, and folds each user's chunks into one archive file per user.

The Discord client, asyncio, ffmpeg and the disk are replaced by data and
parameters:

- A voice channel is a list of member records (`Policy`).
- The clock readings of a poll are numbers passed in (`Monitor.Poll`).
- Exceptions raised by platform calls are flags (`Monitor.Faults`).
- The disk is a map from path to bytes (`Storage.FileSystem`).
- ffmpeg is an arbitrary function from the concatenated inputs to an
  outcome (`Storage.Transcoder`).
- `guild.get_member` is a function from user id to an optional name
  (`Recording.NameOf`).

Modules, one per file:

| file | module | what it models |
|---|---|---|
| common.dfy | Common | `Option`, bytes, ids |
| text.dfy | Text | ASCII character classes, `strip`, `split`/`join`, `str(int)`/`int(str)` |
| config.dfy | Config | constants and the comma-separated allow-lists (app.py:18-34) |
| policy.dfy | Policy | `is_channel_interesting`, `find_interesting_channel` |
| monitor.dfy | Monitor | one poll of one guild in `monitor_channels`, with the state effects of join / leave / rotate |
| sink.dfy | Sink | `WhitelistMP3Sink.write`, with the dict's insertion order |
| lexorder.dfy | LexOrder | Python string order and `sorted` |
| paths.dfy | Paths | `os.path.join`, `ensure_folder` folder names, chunk names, the glob `*_part*.mp3` |
| storage.dfy | Storage | `merge_user_audio` |
| recording.dfy | Recording | `recording_finished` |
| envfile.dfy | EnvFile | `save_whitelist_to_env` |

The quirks of the code are kept:

- `chunk_num_map` is created empty and never gains a key, so every chunk is
  `_part1`.
- The cooldown clean-up branch can never run.
- Chunks are sorted as strings, so `_part10` goes before `_part2`.
- `merge_user_audio` deletes its inputs whatever ffmpeg did.

On the last point, a transcode that runs but writes no archive therefore loses
the old archive and the chunks, where keeping them would be safe: the code does
not check ffmpeg's outcome before deleting, and the model follows the code
(`Storage.FailedMergeLosesAudio`). This holds when ffmpeg can be started; the
case where starting it raises is under "Left out".

## Model

| member | source | states |
|---|---|---|
| Config.KeepIdsMembers | app.py:26 | an id is kept iff some token, stripped, is a non-empty ASCII digit string with that value; no other value appears |
| Config.KeepIdsAppend | app.py:26 | the kept ids follow token order: the ids of two token lists put together are the ids of the first list followed by those of the second |
| Config.KeepIds | app.py:26 | the list comprehension over the tokens; its contents are stated by Config.KeepIdsMembers and its order by Config.KeepIdsAppend |
| Config.KeepIdsOne | app.py:26 | a single token gives its id once if it is an id token and nothing otherwise; with Config.KeepIdsAppend this fixes how often each id appears |
| Config.JoinIds | app.py:375 | `','.join(str(uid) ...)`; Config.ParseJoinedIds shows the joined text parses back to the same ids in the same order |
| Config.ParseIdList | app.py:24-34 | an allow-list variable is split at ',' and filtered as above; an empty variable gives the empty list |
| Config.AllowedChannels | app.py:24-28 | ALLOWED_CHANNELS holds the ids named by the comma-separated tokens of the variable, in token order with duplicates kept; an id is in it iff some token, stripped, is ASCII digits with that value |
| Config.AllowedUsers | app.py:30-34 | an id is in ALLOWED_USERS iff some comma-separated token of the variable, stripped, is ASCII digits with that value |
| Config.ParsedIdsMembers | app.py:24-34 | an id is parsed from a variable iff one of its comma-separated tokens names it |
| Config.ParseJoinedIds | app.py:375 | the comma-joined ids written back to `.env` parse back to the same ids in the same order |
| Text.Split | app.py:26 | `split(',')` gives at least one piece, no piece holds the separator, and joining the pieces gives back the input |
| Text.SplitJoin | app.py:26 | splitting a join of separator-free parts gives back the parts |
| Text.Strip | app.py:26 | `strip()` removes exactly a leading and a trailing run of whitespace |
| Text.ParseNatToString | app.py:32 | `int(str(n)) == n` for every non-negative id |
| Text.NatToString | app.py:375 | `str(n)` is a non-empty string of ASCII digits with no leading zero; Text.ParseNatToString shows `int` reads it back |
| Text.ParseNat | app.py:26 | `int(s)` on ASCII digits; read back from `str(n)` by Text.ParseNatToString, and distinct numbers print differently (Text.NatToStringInjective) |
| Text.NatToStringInjective | app.py:375 | two different ids never print the same |
| Policy.AnyQualifying | app.py:219-224 | the member loop answers true iff some member is a non-bot, whitelisted, and neither self- nor server-deafened |
| Policy.IsChannelInteresting | app.py:211-224 | false for a missing or empty channel, an empty user whitelist, or a channel outside a non-empty channel whitelist; otherwise true iff some member qualifies |
| Policy.BotsNeverCount | app.py:219-221 | adding a bot to a channel never changes the verdict, even when the bot's id is whitelisted |
| Policy.FindInterestingChannel | app.py:226-231 | the result is None iff no channel is interesting; otherwise it is the first interesting channel in guild order |
| Policy.FoundChannelIsFirstMatch | app.py:226-231 | the channel found is interesting and comes no later than any interesting channel |
| Monitor.CheckCooldown | app.py:344-349 | in-cooldown iff an entry exists and the poll time is before it; the clean-up never changes the table |
| Monitor.NextChunkNumbers | app.py:300 | the next chunk map has the same users, each with number + 1 |
| Monitor.JoinAndRecord | app.py:233-259 | a failed connect changes nothing; otherwise the bot is connected with an empty chunk map, records iff `start_recording` did not raise, and is timed iff recording |
| Monitor.LeaveAndCleanup | app.py:261-282 | with a voice client: the recording is saved iff one was running, using the current map; recording stops; the cooldown expiry is the effect time + 10 s even if disconnect raised; the bot is disconnected unless disconnect raised |
| Monitor.RotateChunk | app.py:286-332 | a no-op unless connected and recording; otherwise the chunk is saved with the old map, the new map renumbers the same users by + 1, and the chunk timer restarts at the effect time whether or not the save finished |
| Monitor.Step | app.py:336-368 | a guild leaves iff it is connected to a channel that is no longer interesting, and rotates iff it is connected to a still-interesting channel whose chunk has run CHUNK_TIME; the state after a join, leave or rotate is the one `join_and_record`, `leave_and_cleanup` or `rotate_chunk` leaves, and a leave starts the cooldown; a join happens iff the guild is idle, a target exists and no cooldown is running; a connected guild never joins or switches channel; only a leave touches the cooldown and no entry is ever removed; saves happen only on leave or rotate, with the old map; doing nothing changes nothing |
| Monitor.RunSteps | app.py:336-339 | each poll of a run is the step from the state the previous poll left |
| Monitor.Run | app.py:336-339 | one result per poll of the `while True` loop; Monitor.RunSteps states that each is the step from the state the previous poll left |
| Monitor.ChunkMapStaysEmpty | app.py:240-253 | from an empty chunk map, every state of a run has an empty map and every save is made with the empty map |
| Monitor.FromStartEverySaveIsEmpty | app.py:240-253 | starting from a guild the bot never joined, every chunk saved in any run is saved with the empty chunk map |
| Monitor.CooldownEntryNeverRemoved | app.py:344-349 | once the guild has a cooldown entry, every later state still has one |
| Monitor.NoRejoinDuringCooldown | app.py:344-368 | after a leave, no later join happens before the cooldown runs out, unless another leave came in between |
| Monitor.CooldownIgnoredWhileConnected | app.py:354-366 | while connected, the cooldown entry does not change the action or the save |
| Monitor.ExpiredCooldownNeverBlocks | app.py:344-349 | an idle guild whose entry has expired joins the target, although the entry stays |
| Monitor.StepPreservesConsistency | app.py:233-332 | a recording guild stays connected and timed, and a disconnected guild keeps no timer and no chunk numbers |
| Monitor.RecordingIsAlwaysRotated | app.py:359-363 | a recording in a still-interesting channel whose chunk has run CHUNK_TIME is rotated and saved, and the timer restarts |
| Monitor.DeafenThenUndeafenScenario | app.py:336-368 | a deafened user makes the bot leave with a 10 s cooldown; with polls every CHECK_INTERVAL seconds the bot stays away on the last poll before the expiry and rejoins on the first poll after it |
| Sink.Write | app.py:156-164 | a frame is dropped when the whitelist is empty or lacks the user; otherwise it is appended to the user's buffer, and a new buffer goes at the end of the dict order; the sink's well-formedness is kept |
| Sink.RecordedAudio | app.py:156-164 | after a recording, a whitelisted user's buffer is the concatenation of all their frames in order; a user has an entry iff whitelisted and sent a frame |
| Sink.WriteAll | app.py:156-164 | the sink after a sequence of `write` calls; Sink.RecordedAudio states its buffers and entries against the independent per-user concatenation |
| Sink.OthersUnchanged | app.py:161-164 | a frame never touches another user's buffer or entry |
| Paths.SafeName | app.py:58 | the sanitised name holds only ASCII letters and digits and is no longer than the name |
| Paths.SafeNameOfChar | app.py:58 | a single character is kept iff it is an ASCII letter or digit, and is dropped (never replaced) otherwise |
| Paths.SafeNameMembers | app.py:58 | the sanitised name holds exactly the letters and digits that occur in the name |
| Paths.SafeNameConcat | app.py:58 | sanitising works character by character |
| Paths.SafeNameIdempotent | app.py:58 | sanitising twice is sanitising once |
| Paths.UserFolderInjective | app.py:57-62 | two different user ids never get the same folder, whatever their names |
| Paths.UserFolder | app.py:57-60 | the folder path `<base>/<safe>_<id>` never ends in '/', so its entries are the paths starting with it and a '/' |
| Paths.PathJoin | app.py:60 | `os.path.join(a, b)` is `b` when `b` is absolute and otherwise `a`, a separator unless `a` is empty or already ends in one, then `b`; Paths.JoinIsEntry shows a plain name lands in the folder under that name |
| Paths.JoinIsEntry | app.py:60 | joining a plain name to a folder gives an entry of that folder with that name |
| Paths.ChunkFileNameMatches | app.py:185 | every chunk name written is matched by `*_part*.mp3`, unless the user name starts with '.' |
| Paths.ChunkFileName | app.py:185 | the name `<user>_part<n>.mp3`; Paths.ChunkFileNameMatches shows the glob finds it and Paths.ChunkFileNameIsPlain that it names one entry |
| Paths.ChunkFileNameIsPlain | app.py:185 | a chunk name of a user name without '/' is non-empty and has no '/' |
| Paths.MatchesChunkPattern | app.py:66 | the glob `*_part*.mp3` on one entry; Paths.ChunkFileNameMatches, Paths.NoPartNoMatch and Paths.FixedNamesAreNotChunks state what it accepts and rejects |
| Paths.NoPartNoMatch | app.py:66 | a name without 'p' before its `.mp3` suffix is not a chunk |
| Paths.FixedNamesAreNotChunks | app.py:66-74 | the archive, the temporary archive and the list file are never taken for chunks |
| LexOrder.SortSet | app.py:66 | `sorted` gives exactly the elements of the set, as many as the set holds, so each once |
| LexOrder.LexLess | app.py:66 | Python's `<` on `str`, by code point with a proper prefix first; LexOrder.LexLessIrreflexive, LexOrder.LexLessTransitive and LexOrder.LexLessTotal make it a strict total order |
| LexOrder.LexLessIrreflexive | app.py:66 | no string is less than itself |
| LexOrder.LexLessTransitive | app.py:66 | string order is transitive |
| LexOrder.LexLessTotal | app.py:66 | of two different strings one is less than the other |
| LexOrder.LexLessCommonPrefix | app.py:66 | a common prefix does not change the order of two strings |
| LexOrder.SortSetSorted | app.py:66 | the sorted list is in strictly increasing Python string order |
| LexOrder.InsertSorted | app.py:66 | inserting a new string into a strictly sorted list keeps it strictly sorted |
| Storage.ListChunksMembers | app.py:66 | the chunk list holds exactly the files of the folder whose names match `*_part*.mp3` |
| Storage.ListChunksSorted | app.py:66 | the chunk list is in strictly increasing string order |
| Storage.ListChunks | app.py:66 | `sorted(glob.glob(...))`: every listed path is on the disk; Storage.ListChunksMembers and Storage.ListChunksSorted state its contents and order |
| Storage.RenameMaster | app.py:74-77 | with an archive, the archive path is gone and the temporary path holds its bytes; every other file is unchanged and nothing else is created |
| Storage.RemoveFiles | app.py:93-98 | exactly the named files are gone and every other file keeps its bytes |
| Storage.ChunkIsMergeInput | app.py:66-84 | a folder with a globbed chunk is merged, and that chunk's bytes are among ffmpeg's inputs |
| Storage.Merge | app.py:64-98 | with no chunk the disk is unchanged and no list is built; otherwise the list is the renamed archive (if any) then the chunks in string order, and the disk is the renamed disk with ffmpeg's output at the archive path and the list file, the temporary archive and every chunk removed |
| Storage.ConcatListContents | app.py:72-84 | every listed file exists after the rename, and the listed files hold the old archive's bytes first and then the chunks' bytes |
| Storage.MergeLeavesNoChunks | app.py:96-98 | after a merge, no chunk is left in the folder |
| Storage.MergeRemovesWorkFiles | app.py:93-95 | after a merge, the list file is gone, and so is the temporary archive when there was an archive |
| Storage.MergeWritesArchive | app.py:86-90 | the archive afterwards is exactly what ffmpeg wrote from the old archive followed by the chunks, and is missing if ffmpeg wrote nothing |
| Storage.FailedMergeLosesAudio | app.py:86-98 | when ffmpeg writes nothing, the folder is left with no archive, no renamed archive and no chunk |
| Storage.MergeKeepsOtherFiles | app.py:64-98 | every file other than the archive, the temporary archive, the list file and the chunks is kept unchanged |
| Storage.MergeCreatesOnlyArchive | app.py:64-98 | the archive is the only file a merge can create |
| Storage.MergeElsewhere | app.py:64-98 | merging one folder leaves another folder's entries alone |
| Storage.MergeCongruent | app.py:64-98 | what a merge does to a folder depends only on that folder's entries |
| Recording.ChunkPathsDistinct | app.py:183-185 | two users never write to the same chunk file |
| Recording.UserName | app.py:181-182 | the member's name, or `str(user_id)` when the member is gone; Recording.ChunkPathsDistinct shows users still never share a chunk file |
| Recording.ChunkNumber | app.py:184 | `chunk_num_map.get(user_id, 1)`; Recording.EveryChunkIsPartOne gives part 1 for the empty map |
| Recording.ChunkPath | app.py:183-185 | the chunk file in the user's folder; Recording.ChunkPathInFolder states it is the entry `<user>_part<n>.mp3` of that folder |
| Recording.ChunkPathInFolder | app.py:183-185 | for a user name without '/', the chunk path is an entry of the user's folder named `<user>_part<n>.mp3` |
| Recording.SavedFolders | app.py:180-201 | a folder is queued for merging iff some user in the sink saved a chunk in it |
| Recording.SavedChunks | app.py:183-197 | every user with bytes and a usable name finds their bytes in their chunk file |
| Recording.SaveFrame | app.py:180-201 | the save loop writes nothing but the chunk files of the users who save |
| Recording.MergeAllAt | app.py:203-205 | whatever order the set of folders is iterated in, each folder ends up as one merge of it on the disk the save loop left |
| Recording.MergeAll | app.py:204-205 | the merge loop over the queued folders; Recording.MergeAllAt shows each folder ends as one merge of it, and Recording.MergeAllElsewhere that unlisted folders are untouched |
| Recording.MergeAllElsewhere | app.py:204-205 | merging folders whose directories differ from another folder's leaves that folder's entries alone |
| Recording.SaveChunks | app.py:179-201 | the save loop; Recording.SavedFolders states the queued folders, Recording.SavedChunks the chunk files' contents and Recording.SaveFrame that nothing else is written |
| Recording.RecordingFinished | app.py:168-207 | the whole callback: saves, then one merge per queued folder; stated by Recording.RecordingLeavesNoChunks, Recording.RecordingArchivesChunk, Recording.SavedChunkIsMergeInput, Recording.RecordingSkipsSilentUser and Recording.DotNamedChunkStays, with Recording.MergeAllAt for the folder order |
| Recording.RecordingLeavesNoChunks | app.py:168-205 | after the callback, a user who saved has no chunk left in their folder |
| Recording.SavedChunkIsMergeInput | app.py:183-205 | the bytes a user saved are among ffmpeg's inputs for their folder, unless the name starts with '.' |
| Recording.RecordingArchivesChunk | app.py:168-205 | after the callback, a saving user's archive is exactly ffmpeg's output for their folder, and is missing if ffmpeg wrote nothing |
| Recording.RecordingSkipsSilentUser | app.py:189-193 | a user with empty audio gets no chunk, their folder is not queued, and nothing in it changes |
| Recording.DotNamedChunkStays | app.py:183-205 | a chunk of a user whose name starts with '.' is never merged and stays on disk as written |
| Recording.EveryChunkIsPartOne | app.py:184-185 | with the empty chunk map, every chunk is named `<user>_part1.mp3` |
| Recording.PartTenBeforePartTwo | app.py:66 | part 10 of a user is listed, and so merged, before part 2 |
| EnvFile.ReadLines | app.py:379-380 | `readlines` splits the file into lines that concatenate back to the file; only the last line may lack '\n' |
| EnvFile.ReadWrittenLines | app.py:393-394 | reading back lines written with `writelines` gives the same lines when only the last one lacks '\n' |
| EnvFile.Concat | app.py:393-394 | `writelines`; EnvFile.ReadLines states that the lines read concatenate back to the file, and EnvFile.ReadWrittenLines the converse |
| EnvFile.WhitelistLineIsLine | app.py:375 | the new line is a single line ending in '\n' and starting with `ALLOWED_USERS=` |
| EnvFile.WhitelistLine | app.py:375 | the new line; its meaning is stated by EnvFile.WhitelistLineIsLine and EnvFile.WhitelistLineReloads |
| EnvFile.WhitelistLineReloads | app.py:375 | the new line is one line starting with `ALLOWED_USERS=`, and its value parses back to the ids |
| EnvFile.FirstPrefixed | app.py:384-388 | the position found is the first line starting with `ALLOWED_USERS=`; None iff there is no such line |
| EnvFile.UpdateLines | app.py:383-391 | the first `ALLOWED_USERS=` line is replaced and every other line is kept; with no such line, exactly the new line is appended |
| EnvFile.SaveAfterUnterminatedLine | app.py:379-394 | for a file that is one line with no '\n' and no `ALLOWED_USERS=` prefix, the save writes that line followed directly by the new line |
| EnvFile.UnterminatedLastLineSwallowsEntry | app.py:379-394 | for such a file whose first character is not 'A', the saved file read back has no line starting with `ALLOWED_USERS=`, whatever the ids |
| EnvFile.SwallowedEntryExample | app.py:379-394 | saving [7] over `DISCORD_TOKEN=x` with no final '\n' writes `DISCORD_TOKEN=xALLOWED_USERS=7\n`, which has no whitelist line |
| EnvFile.SaveWhitelistReloads | app.py:372-394 | after the corrected save, the first `ALLOWED_USERS=` line read back is the new line, its value parses to the ids, and every other line is kept |
| EnvFile.SaveAgreesOnTerminatedFiles | app.py:372-394 | for a missing or empty file, or one ending in '\n', the code as written and the corrected save write the same text |
| EnvFile.SaveWhitelist | app.py:372-394 | `save_whitelist_to_env` as written; EnvFile.SaveToMissingFile, EnvFile.SaveAgreesOnTerminatedFiles and EnvFile.SaveAfterUnterminatedLine state what it writes |
| EnvFile.SaveToMissingFile | app.py:377-382 | with no `.env` the file written is exactly the new line |
| EnvFile.SaveWhitelistTerminated | app.py:372-394 | the save with the last line ended first; EnvFile.SaveWhitelistReloads states that it reloads to the ids and keeps every other line |

## Left out

- The Discord client: connecting, voice transport, the bot commands (`allow`, `unallow`, `whitelist`) and `on_ready`. The outcome of the bot's own platform calls enters the model as fault flags; changes the bot does not make itself are covered by the `Monitor.Run:` line below.
- Monitor.Run: a run carries from one poll to the next only the state `Step` left, under one `Settings`. In the source each poll reads `guild.voice_client` and `vc.channel` afresh (app.py:340, app.py:354), so someone can disconnect or move the bot between polls; after a kick no `leave_and_cleanup` runs, no cooldown is set, and the next poll rejoins the target (app.py:365-367). `allow` and `unallow` (app.py:397-406) can also change ALLOWED_USERS between polls or during a recording. Runs with such outside changes are not modelled; the one-poll members (`Monitor.Step` and the lemmas about a single step) hold for any state and any settings, so they apply to each poll of such a run.
- asyncio: `sleep(3)`, `Event` and `wait_for`. `on_chunk_done` is never registered as a callback, so in the code the wait in `rotate_chunk` always times out. The poll's `effectTime` is the clock reading taken after these waits.
- The loop over `bot.guilds`. Guilds share no state, so one guild is modelled.
- Storage.Merge: the ffmpeg run always returns an outcome. `merge_user_audio` and the merge loop of `recording_finished` have no `try` (app.py:74-91, app.py:204-205), so a raising call stops the callback with the remaining folders unmerged, leaving: if `os.rename` raises, the archive and the chunks untouched; if `open` of the list file raises, the renamed temporary archive (when there was an archive) and the chunks, but no list file; if `subprocess.run` raises (ffmpeg not installed, say), the temporary archive, the list file and the chunks. An orphaned temporary archive survives the next merge, which finds no archive and so renames nothing; it is overwritten by the first later merge that finds an archive again, which renames that archive onto the same path. This raising path is not modelled, so Storage.MergeLeavesNoChunks, Storage.FailedMergeLosesAudio and the Recording lemmas hold only for runs where these calls return.
- ffmpeg, including the PCM conversion and the merges of `startup_cleanup`. Concatenation is an arbitrary function, and the text of the list file (with `os.path.abspath`) is not modelled, only its creation and removal.
- MP3 encoding in the sink, `print` logging, `dotenv` loading, and `int(os.getenv('CHUNK_TIME'))`. CHUNK_TIME is a parameter of `Monitor.Settings`.
- EnvFile.WhitelistLine: ids are non-negative (`UserId` is `nat`). The `allow` command takes any `int` (app.py:397-399), so a negative id can be written as `ALLOWED_USERS=-5`; `"-5".isdigit()` is false (app.py:32), so such an id is lost on the next load. Config.ParseJoinedIds, EnvFile.WhitelistLineReloads and EnvFile.SaveWhitelistReloads state the round trip for non-negative ids only.
- Clock readings are integers; `time.time()` returns floating point seconds.
- Text.IsAlnum: only ASCII letters and digits count, because Python's `str.isalnum` also accepts other Unicode letters and digits. The same applies to Text.IsDigit for `str.isdigit` and Text.IsSpace for `str.strip`.
- EnvFile.ReadLines: splits at '\n' only; universal-newline translation of '\r' and '\r\n' is not modelled.
- EnvFile.LineValue: reads the value as the text after `=` up to the line end; python-dotenv's quoting, comments and spacing rules are not modelled.
- Directories: `os.makedirs` is not modelled. The folder of a user with empty audio is still created by `ensure_folder`.
- Recording.Saves: a user name containing '/' is treated as a failed `open`, which is caught and skipped. Names whose '/' would resolve to an existing directory (such as `..`) are not modelled.
- Write errors (a full disk) in the save loop are not modelled. Those users would be skipped like a failed `open`.
- Recording.RecordingFinished: Python iterates `folders_to_merge` in its own set order. The function takes string order, and `Recording.MergeAllAt` shows each folder's outcome is the same for every order.
- Glob details: the folder path is taken literally, with no glob metacharacters in the base directory. Hidden files are handled (names starting with '.' do not match).
- Monitor.Lookup: a connected channel missing from the poll's channel list counts as no channel, so the guild leaves.

## Findings

| source | as written | input that shows it | evidently intended | confidence | as-written member | corrected member |
|---|---|---|---|---|---|---|
| app.py:390-394 | the new `ALLOWED_USERS=` line is appended straight after the last line read, which has no '\n' when the file does not end with one | `.env` holding `DISCORD_TOKEN=x` with no final newline, whitelist [7]: the file becomes `DISCORD_TOKEN=xALLOWED_USERS=7\n`, and no line starts with `ALLOWED_USERS=` | end the last line before appending, so the whitelist reloads as saved | high; not executed | EnvFile.SwallowedEntryExample | EnvFile.SaveWhitelistReloads |


=== FILE: common.dfy ===
/** Shared vocabulary of the recorder model: optional values, bytes and the
    platform's opaque identifiers. */
module Common {

  /** The conventional Some/None datatype, standing in for Python's `None`. */
  datatype Option<+T> = None | Some(value: T) {
    /** The wrapped value, or `default` when there is none. */
    function GetOr(default: T): T {
      match this
      case Some(v) => v
      case None => default
    }
  }

  newtype byte = x: int | 0 <= x < 256

  /** Raw or encoded audio, file contents. */
  type Bytes = seq<byte>

  /** Discord snowflakes are non-negative integers. */
  type UserId = nat
  type ChannelId = nat

  /** The per-user chunk numbers of one recording (`chunk_num_map`). */
  type ChunkMap = map<UserId, nat>
}

=== FILE: config.dfy ===
/** Configuration constants and the comma-separated id lists read from the
    environment (app.py:19-34). */
module Config {
  import opened Text

  /** Seconds a guild may not be rejoined after a deliberate leave. */
  const COOLDOWN_SECONDS: int := 10
  /** Seconds between two polls of the monitor loop. */
  const CHECK_INTERVAL: int := 3
  /** Chunk length in seconds when CHUNK_TIME is not configured. */
  const DEFAULT_CHUNK_TIME: int := 300

  /** A token names an id when, stripped, it is a non-empty run of ASCII digits
      (`x.strip().isdigit()`). */
  predicate IsIdToken(t: string) {
    IsDigits(Strip(t))
  }

  /** `int(x.strip())` for an id token. */
  function TokenId(t: string): nat
    requires IsIdToken(t)
  {
    ParseNat(Strip(t))
  }

  /** What one token contributes to the id list: its id, or nothing. */
  function Kept(t: string): seq<nat> {
    if IsIdToken(t) then [TokenId(t)] else []
  }

  /** A token contributes `x` exactly when it is an id token naming `x`. */
  lemma KeptMembers(t: string, x: nat)
    ensures x in Kept(t) <==> IsIdToken(t) && x == TokenId(t)
  {
  }

  /** The contributions of the tokens, concatenated in token order. */
  function Filtered(keep: string -> seq<nat>, tokens: seq<string>): seq<nat> {
    if |tokens| == 0 then [] else keep(tokens[0]) + Filtered(keep, tokens[1..])
  }

  /** The ids of the id tokens, in token order; every other token is skipped. */
  function KeepIds(tokens: seq<string>): seq<nat> {
    Filtered(Kept, tokens)
  }

  lemma AppendAssoc(x: seq<nat>, y: seq<nat>, z: seq<nat>)
    ensures x + (y + z) == (x + y) + z
  {
  }

  /** Filtering commutes with concatenation. */
  lemma {:induction false} FilteredAppend(keep: string -> seq<nat>, a: seq<string>, b: seq<string>)
    ensures Filtered(keep, a + b) == Filtered(keep, a) + Filtered(keep, b)
  {
    if |a| > 0 {
      var head := keep(a[0]);
      assert Filtered(keep, a + b) == head + Filtered(keep, a[1..] + b) by {
        assert (a + b)[0] == a[0];
        assert (a + b)[1..] == a[1..] + b;
      }
      FilteredAppend(keep, a[1..], b);
      AppendAssoc(head, Filtered(keep, a[1..]), Filtered(keep, b));
    } else {
      assert a + b == b;
    }
  }

  /** Whatever a token contributes is in the filtered list. */
  lemma {:induction false} FilteredKeeps(keep: string -> seq<nat>, tokens: seq<string>, i: nat, x: nat)
    requires i < |tokens| && x in keep(tokens[i])
    ensures x in Filtered(keep, tokens)
  {
    var rest := tokens[1..];
    assert Filtered(keep, tokens) == keep(tokens[0]) + Filtered(keep, rest);
    if i > 0 {
      assert rest[i - 1] == tokens[i];
      FilteredKeeps(keep, rest, i - 1, x);
    }
  }

  /** The position of a token a filtered value comes from. */
  lemma {:induction false} FilteredSource(keep: string -> seq<nat>, tokens: seq<string>, x: nat) returns (i: nat)
    requires x in Filtered(keep, tokens)
    ensures i < |tokens| && x in keep(tokens[i])
  {
    var rest := tokens[1..];
    assert Filtered(keep, tokens) == keep(tokens[0]) + Filtered(keep, rest);
    if x in keep(tokens[0]) {
      i := 0;
    } else {
      var j := FilteredSource(keep, rest, x);
      assert tokens[j + 1] == rest[j];
      i := j + 1;
    }
  }

  /** A single token gives its own id once, or nothing: with `KeepIdsAppend`
      this fixes how often each id appears. */
  lemma KeepIdsOne(t: string)
    ensures KeepIds([t]) == (if IsIdToken(t) then [TokenId(t)] else [])
  {
    assert [t][0] == t && [t][1..] == [];
    assert KeepIds([t]) == Kept(t) + KeepIds([]);
    assert Kept(t) + [] == Kept(t);
  }

  /** The kept ids keep token order across a concatenation of token lists. */
  lemma KeepIdsAppend(a: seq<string>, b: seq<string>)
    ensures KeepIds(a + b) == KeepIds(a) + KeepIds(b)
  {
    FilteredAppend(Kept, a, b);
  }

  /** An id is kept exactly when some token names it. */
  lemma KeepIdsMembers(tokens: seq<string>, x: nat)
    ensures x in KeepIds(tokens) <==>
              exists i :: 0 <= i < |tokens| && IsIdToken(tokens[i]) && x == TokenId(tokens[i])
  {
    if exists i :: 0 <= i < |tokens| && IsIdToken(tokens[i]) && x == TokenId(tokens[i]) {
      var i :| 0 <= i < |tokens| && IsIdToken(tokens[i]) && x == TokenId(tokens[i]);
      KeptMembers(tokens[i], x);
      FilteredKeeps(Kept, tokens, i, x);
    }
    if x in KeepIds(tokens) {
      var i := FilteredSource(Kept, tokens, x);
      KeptMembers(tokens[i], x);
    }
  }

  /** The empty string is not an id token. */
  lemma EmptyIsNoId()
    ensures !IsIdToken("")
  {
    var r := Strip("");
    var i :| StrippedAt("", r, i);
  }

  /** `[int(x.strip()) for x in raw.split(',') if x.strip().isdigit()]`, with the
      empty-string guard of app.py:25 and app.py:31. */
  function ParseIdList(raw: string): (r: seq<nat>)
    ensures r == KeepIds(Split(raw, ','))
  {
    if |raw| == 0 then
      assert Split(raw, ',') == [""];
      EmptyIsNoId();
      assert [""][1..] == [];
      assert KeepIds([""]) == Kept("") + KeepIds([]);
      []
    else KeepIds(Split(raw, ','))
  }

  /** Some comma-separated token of `raw` is an id token naming `x`. */
  ghost predicate ListsId(raw: string, x: nat) {
    exists i :: 0 <= i < |Split(raw, ',')| && IsIdToken(Split(raw, ',')[i]) && x == TokenId(Split(raw, ',')[i])
  }

  /** An id is parsed from `raw` exactly when one of its tokens names it. */
  lemma ParsedIdsMembers(raw: string)
    ensures forall x :: x in ParseIdList(raw) <==> ListsId(raw, x)
  {
    forall x: nat
      ensures x in ParseIdList(raw) <==> ListsId(raw, x)
    {
      KeepIdsMembers(Split(raw, ','), x);
    }
  }

  /** ALLOWED_CHANNELS: the ids named by the tokens, in token order with
      duplicates kept. */
  function AllowedChannels(raw: string): (r: seq<nat>)
    ensures r == KeepIds(Split(raw, ','))
    ensures forall x :: x in r <==> ListsId(raw, x)
  {
    ParsedIdsMembers(raw);
    ParseIdList(raw)
  }

  /** ALLOWED_USERS: the set of ids named by the tokens. */
  function AllowedUsers(raw: string): (r: set<nat>)
    ensures forall x :: x in r <==> ListsId(raw, x)
  {
    ParsedIdsMembers(raw);
    set x | x in ParseIdList(raw)
  }

  function NatStrings(ids: seq<nat>): (r: seq<string>)
    ensures |r| == |ids|
    ensures forall i :: 0 <= i < |ids| ==> r[i] == NatToString(ids[i])
  {
    if |ids| == 0 then [] else [NatToString(ids[0])] + NatStrings(ids[1..])
  }

  /** `','.join(str(uid) for uid in ids)`, the value written back to `.env`. */
  function JoinIds(ids: seq<nat>): string
  {
    JoinWith(NatStrings(ids), ',')
  }

  /** A printed number is an id token naming that number. */
  lemma NumberToken(n: nat)
    ensures Kept(NatToString(n)) == [n]
  {
    var t := NatToString(n);
    StripDigits(t);
    ParseNatToString(n);
    assert IsIdToken(t) && TokenId(t) == n;
  }

  lemma {:induction false} KeepIdsOfNumbers(ids: seq<nat>)
    ensures KeepIds(NatStrings(ids)) == ids
  {
    var s := NatStrings(ids);
    if |ids| > 0 {
      assert Kept(s[0]) == [ids[0]] by {
        NumberToken(ids[0]);
      }
      assert KeepIds(s[1..]) == ids[1..] by {
        assert s[1..] == NatStrings(ids[1..]);
        KeepIdsOfNumbers(ids[1..]);
      }
      assert KeepIds(s) == Kept(s[0]) + KeepIds(s[1..]);
      assert ids == [ids[0]] + ids[1..];
    } else {
      assert s == [];
    }
  }

  /** Parsing the joined list gives back exactly the ids, in order: the value
      persisted for ALLOWED_USERS reloads to the same whitelist. */
  lemma ParseJoinedIds(ids: seq<nat>)
    ensures ParseIdList(JoinIds(ids)) == ids
  {
    var s := NatStrings(ids);
    if |ids| > 0 {
      forall i | 0 <= i < |s|
        ensures ',' !in s[i]
      {
        assert IsDigits(s[i]);
      }
      SplitJoin(s, ',');
      KeepIdsOfNumbers(ids);
    }
  }
}

=== FILE: envfile.dfy ===
/** `save_whitelist_to_env` (app.py:372-394): the `.env` file is read as
    lines, the first `ALLOWED_USERS=` line is replaced (or a line appended),
    and the lines are written back. */
module EnvFile {
  import opened Common
  import opened Text
  import opened Config

  const PREFIX: string := "ALLOWED_USERS="

  // ---------------------------------------------------------------- lines

  /** Length of the first line of `t`, its '\n' included when it has one. */
  function LineLength(t: string): (n: nat)
    requires |t| > 0
    ensures 0 < n <= |t|
    ensures forall i :: 0 <= i < n - 1 ==> t[i] != '\n'
    ensures t[n - 1] == '\n' || n == |t|
  {
    if t[0] == '\n' || |t| == 1 then 1 else 1 + LineLength(t[1..])
  }

  /** A line as `readlines` returns it: non-empty, with '\n' at most at the
      end. */
  predicate IsLine(l: string) {
    |l| > 0 && forall i :: 0 <= i < |l| - 1 ==> l[i] != '\n'
  }

  predicate Terminated(l: string) {
    |l| > 0 && l[|l| - 1] == '\n'
  }

  /** A list of lines that `readlines` could have returned: only the last one
      may lack its '\n'. */
  predicate WellFormed(lines: seq<string>) {
    && (forall i :: 0 <= i < |lines| ==> IsLine(lines[i]))
    && (forall i :: 0 <= i < |lines| - 1 ==> Terminated(lines[i]))
  }

  /** `f.writelines(lines)`: the lines written one after the other. */
  function Concat(lines: seq<string>): string {
    if |lines| == 0 then "" else lines[0] + Concat(lines[1..])
  }

  /** `f.readlines()` on a text file (with '\n' line ends): the file cut after
      every '\n'; the last line has no '\n' when the file does not end with
      one. */
  function ReadLines(t: string): (r: seq<string>)
    ensures Concat(r) == t
    ensures WellFormed(r)
    decreases |t|
  {
    if |t| == 0 then []
    else
      var n := LineLength(t);
      var rest := ReadLines(t[n..]);
      var r := [t[..n]] + rest;
      assert r[1..] == rest;
      assert t == t[..n] + t[n..];
      r
  }

  lemma {:induction false} LineLengthOf(l: string, rest: string)
    requires IsLine(l) && (Terminated(l) || |rest| == 0)
    ensures LineLength(l + rest) == |l|
    decreases |l|
  {
    if |l| > 1 {
      assert (l + rest)[1..] == l[1..] + rest;
      LineLengthOf(l[1..], rest);
    }
  }

  /** Reading back what `writelines` wrote gives the same lines, as long as
      only the last line lacks its '\n'. */
  lemma {:induction false} ReadWrittenLines(lines: seq<string>)
    requires WellFormed(lines)
    ensures ReadLines(Concat(lines)) == lines
    decreases |lines|
  {
    if |lines| > 0 {
      var l := lines[0];
      var rest := lines[1..];
      var t := Concat(lines);
      assert t == l + Concat(rest);
      assert WellFormed(rest) by {
        forall i | 0 <= i < |rest|
          ensures IsLine(rest[i]) && (i < |rest| - 1 ==> Terminated(rest[i]))
        {
          assert rest[i] == lines[i + 1];
        }
      }
      ReadWrittenLines(rest);
      assert LineLength(t) == |l| by {
        LineLengthOf(l, Concat(rest));
      }
      assert t[..|l|] == l && t[|l|..] == Concat(rest);
      assert ReadLines(t) == [l] + ReadLines(Concat(rest));
      assert lines == [l] + rest;
    }
  }

  /** A text with no '\n' at all is read as one line. */
  lemma OneLine(t: string)
    requires |t| > 0 && '\n' !in t
    ensures ReadLines(t) == [t]
  {
    assert t + "" == t;
    LineLengthOf(t, "");
    assert t[..|t|] == t && t[|t|..] == "";
  }

  /** A text without '\n', ended by one, is read as that one line. */
  lemma OneEndedLine(a: string)
    requires '\n' !in a
    ensures ReadLines(a + "\n") == [a + "\n"]
  {
    var l := a + "\n";
    LineOf(a);
    assert l + "" == l;
    LineLengthOf(l, "");
    assert l[..|l|] == l && l[|l|..] == "";
  }

  /** A text without '\n', ended by one, is a full line. */
  lemma LineOf(a: string)
    requires '\n' !in a
    ensures IsLine(a + "\n") && Terminated(a + "\n")
  {
    assert forall i :: 0 <= i < |a| ==> (a + "\n")[i] == a[i];
  }

  /** The last character written is the last character of the last line. */
  lemma {:induction false} ConcatLast(lines: seq<string>)
    requires |lines| > 0 && forall i :: 0 <= i < |lines| ==> |lines[i]| > 0
    ensures |Concat(lines)| > 0
    ensures Concat(lines)[|Concat(lines)| - 1] == lines[|lines| - 1][|lines[|lines| - 1]| - 1]
    decreases |lines|
  {
    if |lines| > 1 {
      assert forall i :: 0 <= i < |lines| - 1 ==> lines[1..][i] == lines[i + 1];
      ConcatLast(lines[1..]);
    }
  }

  // ---------------------------------------------------------------- the whitelist line

  predicate HasPrefix(line: string) {
    |PREFIX| <= |line| && line[..|PREFIX|] == PREFIX
  }

  /** `f"ALLOWED_USERS={','.join(str(uid) for uid in ALLOWED_USERS)}\n"`, with
      the set's iteration order given as `ids`. */
  function WhitelistLine(ids: seq<nat>): string {
    PREFIX + JoinIds(ids) + "\n"
  }

  /** The value a reader of the line sees: what follows `=`, without the line
      end. */
  function LineValue(line: string): string
    requires HasPrefix(line) && Terminated(line)
  {
    line[|PREFIX|..|line| - 1]
  }

  /** The whitelist line is one full line starting with the prefix. */
  lemma WhitelistLineIsLine(ids: seq<nat>)
    ensures IsLine(WhitelistLine(ids)) && Terminated(WhitelistLine(ids)) && HasPrefix(WhitelistLine(ids))
  {
    var l := WhitelistLine(ids);
    var strs := NatStrings(ids);
    forall i | 0 <= i < |strs|
      ensures '\n' !in strs[i]
    {
      assert IsDigits(strs[i]);
    }
    JoinWithAvoids(strs, ',', '\n');
    assert l[..|PREFIX|] == PREFIX;
    forall i | 0 <= i < |l| - 1
      ensures l[i] != '\n'
    {
      if i >= |PREFIX| {
        assert l[i] == JoinIds(ids)[i - |PREFIX|];
      }
    }
  }

  /** The value of the whitelist line parses back to the ids. */
  lemma WhitelistLineReloads(ids: seq<nat>)
    ensures HasPrefix(WhitelistLine(ids)) && Terminated(WhitelistLine(ids))
    ensures ParseIdList(LineValue(WhitelistLine(ids))) == ids
  {
    WhitelistLineIsLine(ids);
    var l := WhitelistLine(ids);
    assert LineValue(l) == JoinIds(ids);
    ParseJoinedIds(ids);
  }

  /** The position of the first line starting with `ALLOWED_USERS=`. */
  function FirstPrefixed(lines: seq<string>): (r: Option<nat>)
    ensures r.Some? ==> r.value < |lines| && HasPrefix(lines[r.value])
                        && forall j :: 0 <= j < r.value ==> !HasPrefix(lines[j])
    ensures r.None? ==> forall j :: 0 <= j < |lines| ==> !HasPrefix(lines[j])
  {
    if |lines| == 0 then None
    else if HasPrefix(lines[0]) then Some(0)
    else
      var rest := FirstPrefixed(lines[1..]);
      assert forall j :: 1 <= j < |lines| ==> lines[j] == lines[1..][j - 1];
      if rest.Some? then Some(rest.value + 1) else None
  }

  /** The loop of app.py:383-391: the first `ALLOWED_USERS=` line is replaced by
      the new line and every other line is kept; with no such line, exactly
      the new line is appended. */
  function UpdateLines(lines: seq<string>, ids: seq<nat>): (r: seq<string>)
    ensures (forall j :: 0 <= j < |lines| ==> !HasPrefix(lines[j])) ==> r == lines + [WhitelistLine(ids)]
    ensures forall i :: 0 <= i < |lines| && HasPrefix(lines[i]) && (forall j :: 0 <= j < i ==> !HasPrefix(lines[j]))
              ==> r == lines[i := WhitelistLine(ids)]
  {
    match FirstPrefixed(lines)
    case Some(i) => lines[i := WhitelistLine(ids)]
    case None => lines + [WhitelistLine(ids)]
  }

  // ---------------------------------------------------------------- saving

  /** `save_whitelist_to_env` as written: the new `.env` text, given the old
      one (`None` when the file does not exist). */
  function SaveWhitelist(existing: Option<string>, ids: seq<nat>): string {
    Concat(UpdateLines(ReadLines(existing.GetOr("")), ids))
  }

  /** The whitelist line for the single id 7. */
  lemma SevenLine()
    ensures WhitelistLine([7]) == "ALLOWED_USERS=7\n"
  {
    assert NatToString(7) == "7";
    assert NatStrings([7]) == ["7"];
    assert JoinIds([7]) == "7";
  }

  /** A file made of one line without '\n' and without the prefix: the new line
      is appended right after it, with nothing in between. */
  lemma {:induction false} SaveAfterUnterminatedLine(t: string, ids: seq<nat>)
    requires |t| > 0 && '\n' !in t && !HasPrefix(t)
    ensures SaveWhitelist(Some(t), ids) == t + WhitelistLine(ids)
  {
    OneLine(t);
    assert ReadLines(Some(t).GetOr("")) == [t];
    assert FirstPrefixed([t]).None?;
    var w := WhitelistLine(ids);
    assert UpdateLines([t], ids) == [t, w];
    assert [t, w][1..] == [w];
    assert Concat([w]) == w + Concat([]);
  }

  /** In such a file the appended line is glued to the last line, and the saved
      file, read again, has no whitelist line at all. */
  lemma {:induction false} UnterminatedLastLineSwallowsEntry(t: string, ids: seq<nat>)
    requires |t| > 0 && '\n' !in t && t[0] != PREFIX[0]
    ensures FirstPrefixed(ReadLines(SaveWhitelist(Some(t), ids))).None?
  {
    var w := WhitelistLine(ids);
    var out := t + w;
    assert SaveWhitelist(Some(t), ids) == out by {
      assert !HasPrefix(t) by {
        assert |t| < |PREFIX| || t[..|PREFIX|][0] == t[0];
      }
      SaveAfterUnterminatedLine(t, ids);
    }
    assert ReadLines(out) == [out] by {
      GluedLine(t, ids);
      OneEndedLine(out[..|out| - 1]);
    }
    assert !HasPrefix(out) by {
      assert out[0] == t[0];
    }
    assert FirstPrefixed([out]).None?;
  }

  /** The glued text has its only '\n' at the end. */
  lemma GluedLine(t: string, ids: seq<nat>)
    requires '\n' !in t
    ensures |t + WhitelistLine(ids)| > 0
    ensures var out := t + WhitelistLine(ids);
            '\n' !in out[..|out| - 1] && out == out[..|out| - 1] + "\n"
  {
    WhitelistLineIsLine(ids);
    var w := WhitelistLine(ids);
    var out := t + w;
    var body := out[..|out| - 1];
    assert out == body + "\n";
    forall i | 0 <= i < |body|
      ensures body[i] != '\n'
    {
      if i < |t| {
        assert body[i] == t[i];
      } else {
        assert body[i] == w[i - |t|];
      }
    }
  }

  /** A `.env` holding only `DISCORD_TOKEN=x`, without a line end, saving the
      whitelist `[7]`. */
  lemma SwallowedEntryExample()
    ensures SaveWhitelist(Some("DISCORD_TOKEN=x"), [7]) == "DISCORD_TOKEN=x" + "ALLOWED_USERS=7\n"
    ensures FirstPrefixed(ReadLines(SaveWhitelist(Some("DISCORD_TOKEN=x"), [7]))).None?
  {
    var t := "DISCORD_TOKEN=x";
    assert t[0] != PREFIX[0] && '\n' !in t;
    UnterminatedLastLineSwallowsEntry(t, [7]);
    assert SaveWhitelist(Some(t), [7]) == t + WhitelistLine([7]) by {
      SaveAfterUnterminatedLine(t, [7]);
    }
    assert WhitelistLine([7]) == "ALLOWED_USERS=7\n" by {
      SevenLine();
    }
  }

  /** `l` with its '\n' added when it lacks one. */
  function Terminate(l: string): (r: string)
    ensures Terminated(r)
    ensures IsLine(l) ==> IsLine(r)
    ensures l == r || r == l + "\n"
  {
    if Terminated(l) then l else l + "\n"
  }

  /** The read lines with the last one terminated. */
  function TerminateLast(lines: seq<string>): (r: seq<string>)
    ensures |r| == |lines|
    ensures forall i :: 0 <= i < |lines| - 1 ==> r[i] == lines[i]
    ensures |lines| > 0 ==> r[|lines| - 1] == Terminate(lines[|lines| - 1])
  {
    if |lines| == 0 then [] else lines[..|lines| - 1] + [Terminate(lines[|lines| - 1])]
  }

  /** The evidently intended save: the last line is ended before anything is
      appended after it. */
  function SaveWhitelistTerminated(existing: Option<string>, ids: seq<nat>): string {
    Concat(UpdateLines(TerminateLast(ReadLines(existing.GetOr(""))), ids))
  }

  /** Every line is a full line ended by '\n'. */
  predicate AllEnded(lines: seq<string>) {
    forall i :: 0 <= i < |lines| ==> IsLine(lines[i]) && Terminated(lines[i])
  }

  lemma TerminateLastEnds(lines: seq<string>)
    requires WellFormed(lines)
    ensures AllEnded(TerminateLast(lines))
  {
  }

  /** Updating lines that are all ended keeps them all ended. */
  lemma UpdateKeepsEnded(lines: seq<string>, ids: seq<nat>)
    requires AllEnded(lines)
    ensures AllEnded(UpdateLines(lines, ids))
  {
    WhitelistLineIsLine(ids);
    var w := WhitelistLine(ids);
    var upd := UpdateLines(lines, ids);
    forall i | 0 <= i < |upd|
      ensures IsLine(upd[i]) && Terminated(upd[i])
    {
      if i < |lines| && upd[i] != w {
        assert upd[i] == lines[i];
      }
    }
  }

  /** After the update, the first `ALLOWED_USERS=` line is the new line, and
      every line without the prefix is where it was. */
  lemma UpdatePlacesLine(lines: seq<string>, ids: seq<nat>)
    ensures FirstPrefixed(UpdateLines(lines, ids)).Some?
    ensures UpdateLines(lines, ids)[FirstPrefixed(UpdateLines(lines, ids)).value] == WhitelistLine(ids)
    ensures forall j :: 0 <= j < |lines| && !HasPrefix(lines[j]) ==>
              j < |UpdateLines(lines, ids)| && UpdateLines(lines, ids)[j] == lines[j]
  {
    WhitelistLineIsLine(ids);
    var upd := UpdateLines(lines, ids);
    var k := match FirstPrefixed(lines) case Some(i) => i case None => |lines|;
    assert upd[k] == WhitelistLine(ids);
    assert forall j :: 0 <= j < k ==> !HasPrefix(upd[j]);
  }

  /** After the corrected save, reading the file again finds the new line as
      the first `ALLOWED_USERS=` line, and its value parses back to exactly the
      saved ids; every other line comes back as it was, ended by '\n'. */
  lemma SaveWhitelistReloads(existing: Option<string>, ids: seq<nat>)
    ensures FirstPrefixed(ReadLines(SaveWhitelistTerminated(existing, ids))).Some?
    ensures var lines := ReadLines(SaveWhitelistTerminated(existing, ids));
            lines[FirstPrefixed(lines).value] == WhitelistLine(ids)
            && ParseIdList(LineValue(lines[FirstPrefixed(lines).value])) == ids
    ensures var before := TerminateLast(ReadLines(existing.GetOr("")));
            var lines := ReadLines(SaveWhitelistTerminated(existing, ids));
            forall j :: 0 <= j < |before| && !HasPrefix(before[j]) ==> j < |lines| && lines[j] == before[j]
  {
    var before := TerminateLast(ReadLines(existing.GetOr("")));
    var upd := UpdateLines(before, ids);
    TerminateLastEnds(ReadLines(existing.GetOr("")));
    UpdateKeepsEnded(before, ids);
    ReadWrittenLines(upd);
    assert ReadLines(SaveWhitelistTerminated(existing, ids)) == upd;
    UpdatePlacesLine(before, ids);
    WhitelistLineReloads(ids);
  }

  /** When the old file is missing, empty or ends with '\n', the code as
      written and the corrected save agree. */
  lemma SaveAgreesOnTerminatedFiles(existing: Option<string>, ids: seq<nat>)
    requires existing.None? || |existing.value| == 0 || existing.value[|existing.value| - 1] == '\n'
    ensures SaveWhitelist(existing, ids) == SaveWhitelistTerminated(existing, ids)
  {
    var lines := ReadLines(existing.GetOr(""));
    if |lines| > 0 {
      ConcatLast(lines);
      assert Terminated(lines[|lines| - 1]);
      assert TerminateLast(lines) == lines;
    }
  }

  /** With no `.env` file, the save writes exactly the new line. */
  lemma SaveToMissingFile(ids: seq<nat>)
    ensures SaveWhitelist(None, ids) == WhitelistLine(ids)
  {
    assert ReadLines("") == [];
    assert UpdateLines([], ids) == [WhitelistLine(ids)];
    assert Concat([WhitelistLine(ids)]) == WhitelistLine(ids) + Concat([]);
  }
}

=== FILE: lexorder.dfy ===
/** Python's `<` on `str` (code-point lexicographic order), as used by
    `sorted(glob.glob(...))`, and sorting under it. */
module LexOrder {

  /** `a < b` on Python strings: at the first difference the smaller code point
      wins; a proper prefix is smaller. */
  predicate LexLess(a: string, b: string)
    decreases |a|
  {
    if |a| == 0 then |b| > 0
    else if |b| == 0 then false
    else if a[0] != b[0] then a[0] < b[0]
    else LexLess(a[1..], b[1..])
  }

  lemma {:induction false} LexLessIrreflexive(a: string)
    ensures !LexLess(a, a)
    decreases |a|
  {
    if |a| > 0 {
      LexLessIrreflexive(a[1..]);
    }
  }

  lemma {:induction false} LexLessTransitive(a: string, b: string, c: string)
    requires LexLess(a, b) && LexLess(b, c)
    ensures LexLess(a, c)
    decreases |a|
  {
    if |a| > 0 && a[0] == b[0] && b[0] == c[0] {
      LexLessTransitive(a[1..], b[1..], c[1..]);
    }
  }

  lemma {:induction false} LexLessTotal(a: string, b: string)
    ensures a == b || LexLess(a, b) || LexLess(b, a)
    decreases |a|
  {
    if |a| > 0 && |b| > 0 && a[0] == b[0] {
      LexLessTotal(a[1..], b[1..]);
      if a[1..] == b[1..] {
        assert a == [a[0]] + a[1..] && b == [b[0]] + b[1..];
      }
    }
  }

  lemma {:induction false} LexLessAsymmetric(a: string, b: string)
    ensures LexLess(a, b) ==> !LexLess(b, a)
    decreases |a|
  {
    if |a| > 0 && |b| > 0 && a[0] == b[0] {
      LexLessAsymmetric(a[1..], b[1..]);
    }
  }

  /** A common prefix does not change the order. */
  lemma {:induction false} LexLessCommonPrefix(p: string, a: string, b: string)
    ensures LexLess(p + a, p + b) <==> LexLess(a, b)
    decreases |p|
  {
    if |p| > 0 {
      assert (p + a)[1..] == p[1..] + a;
      assert (p + b)[1..] == p[1..] + b;
      LexLessCommonPrefix(p[1..], a, b);
    } else {
      assert p + a == a && p + b == b;
    }
  }

  predicate StrictlySorted(xs: seq<string>) {
    forall i, j :: 0 <= i < j < |xs| ==> LexLess(xs[i], xs[j])
  }

  /** In a strictly sorted list, the smaller string comes first. */
  lemma SortedPositions(xs: seq<string>, i: int, j: int)
    requires StrictlySorted(xs) && 0 <= i < |xs| && 0 <= j < |xs|
    ensures LexLess(xs[i], xs[j]) ==> i < j
  {
    LexLessIrreflexive(xs[i]);
    if j < i {
      LexLessAsymmetric(xs[j], xs[i]);
    }
  }

  /** Inserts `x` before the first element it is less than. */
  function Insert(x: string, xs: seq<string>): (r: seq<string>)
    ensures forall y :: y in r <==> y == x || y in xs
    ensures |r| == |xs| + 1
  {
    if |xs| == 0 then [x]
    else if LexLess(x, xs[0]) then [x] + xs
    else [xs[0]] + Insert(x, xs[1..])
  }

  /** Inserting a new element keeps a strictly sorted list strictly sorted. */
  lemma {:induction false} InsertSorted(x: string, xs: seq<string>)
    requires StrictlySorted(xs) && x !in xs
    ensures StrictlySorted(Insert(x, xs))
    decreases |xs|
  {
    if |xs| == 0 {
    } else if LexLess(x, xs[0]) {
      forall j | 0 <= j < |xs|
        ensures LexLess(x, xs[j])
      {
        if j > 0 {
          LexLessTransitive(x, xs[0], xs[j]);
        }
      }
      assert StrictlySorted([x] + xs);
    } else {
      LexLessTotal(x, xs[0]);
      assert StrictlySorted(xs[1..]);
      InsertSorted(x, xs[1..]);
      var rest := Insert(x, xs[1..]);
      forall j | 0 <= j < |rest|
        ensures LexLess(xs[0], rest[j])
      {
        if rest[j] != x {
          assert rest[j] in xs[1..];
          var k :| 0 <= k < |xs| - 1 && xs[1..][k] == rest[j];
          assert xs[k + 1] == rest[j];
        }
      }
      assert Insert(x, xs) == [xs[0]] + rest;
    }
  }

  /** Some element of a non-empty set. */
  ghost function Pick(s: set<string>): (x: string)
    requires s != {}
    ensures x in s
  {
    var x :| x in s; x
  }

  /** Sorts a finite set of strings into strictly increasing order. */
  ghost function SortSet(s: set<string>): (r: seq<string>)
    ensures forall y :: y in r <==> y in s
    ensures |r| == |s|
    decreases s
  {
    if s == {} then []
    else
      var x := Pick(s);
      Insert(x, SortSet(s - {x}))
  }

  /** The sorted list is strictly increasing, so it holds no element twice. */
  lemma {:induction false} SortSetSorted(s: set<string>)
    ensures StrictlySorted(SortSet(s))
    decreases s
  {
    if s != {} {
      var x := Pick(s);
      assert SortSet(s) == Insert(x, SortSet(s - {x}));
      SortSetSorted(s - {x});
      InsertSorted(x, SortSet(s - {x}));
    }
  }
}

=== FILE: monitor.dfy ===
/** The per-guild poll step of `monitor_channels` (app.py:336-368) together with
    the state effects of `join_and_record`, `leave_and_cleanup` and
    `rotate_chunk` (app.py:233-332). Time is a parameter: `now` is the clock
    read by the poll (app.py:342), `effectTime` the clock read by the effect
    after its awaits (app.py:253, app.py:281, app.py:320). */
module Monitor {
  import opened Common
  import opened Policy
  import Config

  /** What the bot holds for one guild between two polls. */
  datatype GuildState = GuildState(
    connected: Option<ChannelId>,   // guild.voice_client and its channel
    recording: bool,                // vc.recording
    chunkStart: Option<int>,        // vc._chunk_start_time, once set
    chunkNumMap: ChunkMap,          // vc._chunk_num_map ({} when unset)
    cooldownExpiry: Option<int>)    // guild_cooldowns[guild.id]

  /** A guild the bot has never joined. */
  const Initial: GuildState := GuildState(None, false, None, map[], None)

  /** Which platform calls raise during this poll; every such exception is
      caught by the source. `stop_recording` raises exactly when nothing is
      being recorded, so it is decided by the state instead. */
  datatype Faults = Faults(connectFails: bool, startFails: bool, disconnectFails: bool)

  const NoFaults: Faults := Faults(false, false, false)

  /** Everything one poll of one guild observes. */
  datatype Poll = Poll(now: int, effectTime: int, channels: seq<Channel>, faults: Faults)

  /** Configuration the loop reads: the allow-lists and CHUNK_TIME. */
  datatype Settings = Settings(allow: Allow, chunkTime: int)

  /** The branch the poll takes. */
  datatype Action = NoAction | Leave | Rotate | Join(channel: ChannelId)

  /** The branch taken, the chunk map handed to `recording_finished` when a
      recording was stopped, and the guild's next state. */
  datatype StepResult = StepResult(action: Action, save: Option<ChunkMap>, next: GuildState)

  /** `guild_cooldowns` holds an entry for the guild that has not yet expired. */
  predicate InCooldown(now: int, st: GuildState) {
    st.cooldownExpiry.Some? && now < st.cooldownExpiry.value
  }

  /** app.py:344-349. The clean-up branch needs the entry to be both unexpired
      and expired, so it never runs: the state is returned unchanged and an
      expired entry stays in the table. */
  function CheckCooldown(now: int, st: GuildState): (r: (bool, GuildState))
    ensures r.1 == st
    ensures r.0 <==> st.cooldownExpiry.Some? && now < st.cooldownExpiry.value
  {
    var inCooldown := InCooldown(now, st);
    if inCooldown && now >= st.cooldownExpiry.GetOr(0) then
      (false, st.(cooldownExpiry := None))
    else
      (inCooldown, st)
  }

  /** The live view of the connected channel: the first channel of the guild's
      list with that id. */
  function Lookup(channels: seq<Channel>, id: ChannelId): (r: Option<Channel>)
    ensures r.Some? ==> r.value in channels && r.value.id == id
    ensures r.None? ==> forall i :: 0 <= i < |channels| ==> channels[i].id != id
  {
    if |channels| == 0 then None
    else if channels[0].id == id then Some(channels[0])
    else Lookup(channels[1..], id)
  }

  /** `{uid: num + 1 for uid, num in old.items()}` (app.py:300). */
  function NextChunkNumbers(m: ChunkMap): (r: ChunkMap)
    ensures r.Keys == m.Keys
    ensures forall u :: u in m ==> r[u] == m[u] + 1
  {
    map u | u in m :: m[u] + 1
  }

  /** `join_and_record` (app.py:233-259): a fresh, empty chunk map and a chunk
      timer on success; nothing on a failed connect; connected but neither
      recording nor timed when `start_recording` raises. */
  function JoinAndRecord(channel: ChannelId, t: int, st: GuildState, faults: Faults): (r: GuildState)
    ensures faults.connectFails ==> r == st
    ensures !faults.connectFails ==> r.connected == Some(channel) && r.chunkNumMap == map[]
    ensures !faults.connectFails ==> (r.recording <==> !faults.startFails)
    ensures !faults.connectFails ==> (r.chunkStart.Some? <==> r.recording)
    ensures !faults.connectFails && r.recording ==> r.chunkStart == Some(t)
    ensures r.cooldownExpiry == st.cooldownExpiry
  {
    if faults.connectFails then st
    else if faults.startFails then GuildState(Some(channel), false, None, map[], st.cooldownExpiry)
    else GuildState(Some(channel), true, Some(t), map[], st.cooldownExpiry)
  }

  /** `leave_and_cleanup` (app.py:261-282): stop (which saves only if something
      was recording), disconnect, and start the cooldown at `t`, even when the
      disconnect raised. */
  function LeaveAndCleanup(t: int, st: GuildState, faults: Faults): (r: StepResult)
    ensures r.action == Leave
    ensures st.connected.None? ==> r.save.None? && r.next == st
    ensures st.connected.Some? ==> r.next.cooldownExpiry == Some(t + Config.COOLDOWN_SECONDS)
    ensures st.connected.Some? ==> !r.next.recording
    ensures st.connected.Some? ==> (r.save.Some? <==> st.recording)
    ensures r.save.Some? ==> r.save.value == st.chunkNumMap
    ensures st.connected.Some? && !faults.disconnectFails ==> r.next.connected.None?
  {
    if st.connected.None? then StepResult(Leave, None, st)
    else
      var save := if st.recording then Some(st.chunkNumMap) else None;
      var expiry := Some(t + Config.COOLDOWN_SECONDS);
      if faults.disconnectFails then
        StepResult(Leave, save, st.(recording := false, cooldownExpiry := expiry))
      else
        StepResult(Leave, save, GuildState(None, false, None, map[], expiry))
  }

  /** `rotate_chunk` (app.py:286-332): unless connected and recording it does
      nothing; otherwise the finished chunk is saved under the old map, the map
      moves on by one per known user and the chunk timer restarts at `t`,
      whether or not the wait for the save timed out. */
  function RotateChunk(t: int, st: GuildState, faults: Faults): (r: (Option<ChunkMap>, GuildState))
    ensures st.connected.None? || !st.recording ==> r == (None, st)
    ensures st.connected.Some? && st.recording ==>
              && r.0 == Some(st.chunkNumMap)
              && r.1.chunkNumMap.Keys == st.chunkNumMap.Keys
              && (forall u :: u in st.chunkNumMap ==> r.1.chunkNumMap[u] == st.chunkNumMap[u] + 1)
              && r.1.chunkStart == Some(t)
              && r.1.connected == st.connected
              && r.1.cooldownExpiry == st.cooldownExpiry
              && (r.1.recording <==> !faults.startFails)
  {
    if st.connected.None? || !st.recording then (None, st)
    else
      (Some(st.chunkNumMap),
       st.(chunkNumMap := NextChunkNumbers(st.chunkNumMap),
           chunkStart := Some(t),
           recording := !faults.startFails))
  }

  /** One iteration of the `for guild in bot.guilds` loop for one guild. */
  function Step(settings: Settings, st: GuildState, poll: Poll): (r: StepResult)
    // A guild leaves exactly when its connected channel is no longer interesting.
    ensures r.action == Leave <==>
              st.connected.Some? && !IsChannelInteresting(Lookup(poll.channels, st.connected.value), settings.allow)
    // It rotates exactly when the channel is still interesting and the chunk is old enough.
    ensures r.action == Rotate <==>
              && st.connected.Some? && IsChannelInteresting(Lookup(poll.channels, st.connected.value), settings.allow)
              && st.chunkStart.Some? && poll.now - st.chunkStart.value >= settings.chunkTime
    // Each effect leaves the state its own operation describes.
    ensures r.action.Join? ==> r.save.None? && r.next == JoinAndRecord(r.action.channel, poll.effectTime, st, poll.faults)
    ensures r.action == Leave ==>
              var l := LeaveAndCleanup(poll.effectTime, st, poll.faults); r.save == l.save && r.next == l.next
    ensures r.action == Rotate ==> (r.save, r.next) == RotateChunk(poll.effectTime, st, poll.faults)
    // Joins happen exactly when idle, a target exists and no cooldown is running.
    ensures r.action.Join? <==> (st.connected.None?
                                 && FindInterestingChannel(poll.channels, settings.allow).Some?
                                 && !InCooldown(poll.now, st))
    ensures r.action.Join? ==> r.action.channel == FindInterestingChannel(poll.channels, settings.allow).value.id
    // A connected guild never joins and never moves to another channel.
    ensures st.connected.Some? ==> (!r.action.Join?
                                   && (r.next.connected == st.connected || r.next.connected.None?))
    // Only leaving touches the cooldown table, and nothing ever removes an entry.
    ensures r.action == Leave ==> (st.connected.Some?
                                   && r.next.cooldownExpiry == Some(poll.effectTime + Config.COOLDOWN_SECONDS))
    ensures r.action != Leave ==> r.next.cooldownExpiry == st.cooldownExpiry
    ensures st.cooldownExpiry.Some? ==> r.next.cooldownExpiry.Some?
    // Only a stopped recording is saved, and always with the map it was started with.
    ensures r.save.Some? ==> (r.action == Leave || r.action == Rotate) && st.recording
                             && r.save.value == st.chunkNumMap
    ensures r.action == NoAction ==> r.next == st && r.save.None?
  {
    var (inCooldown, st0) := CheckCooldown(poll.now, st);
    var target := FindInterestingChannel(poll.channels, settings.allow);
    if st0.connected.Some? then
      if !IsChannelInteresting(Lookup(poll.channels, st0.connected.value), settings.allow) then
        LeaveAndCleanup(poll.effectTime, st0, poll.faults)
      else if st0.chunkStart.Some? && poll.now - st0.chunkStart.value >= settings.chunkTime then
        var (save, st1) := RotateChunk(poll.effectTime, st0, poll.faults);
        StepResult(Rotate, save, st1)
      else
        StepResult(NoAction, None, st0)
    else if target.Some? && !inCooldown then
      StepResult(Join(target.value.id), None, JoinAndRecord(target.value.id, poll.effectTime, st0, poll.faults))
    else
      StepResult(NoAction, None, st0)
  }

  // ------------------------------------------------------------------ runs

  /** The results of polling the guild once per element of `polls`, starting
      from `st`. */
  function Run(settings: Settings, st: GuildState, polls: seq<Poll>): (rs: seq<StepResult>)
    ensures |rs| == |polls|
    decreases |polls|
  {
    if |polls| == 0 then []
    else
      var r := Step(settings, st, polls[0]);
      [r] + Run(settings, r.next, polls[1..])
  }

  /** The state in which the `k`-th poll of a run starts. */
  function Before(st: GuildState, rs: seq<StepResult>, k: nat): GuildState
    requires k <= |rs|
  {
    if k == 0 then st else rs[k - 1].next
  }

  /** Each result of a run is the step taken from the state before it. */
  lemma {:induction false} RunSteps(settings: Settings, st: GuildState, polls: seq<Poll>, k: nat)
    requires k < |polls|
    ensures Run(settings, st, polls)[k] == Step(settings, Before(st, Run(settings, st, polls), k), polls[k])
    decreases |polls|
  {
    var rs := Run(settings, st, polls);
    if k > 0 {
      var r := Step(settings, st, polls[0]);
      RunSteps(settings, r.next, polls[1..], k - 1);
      assert rs[1..] == Run(settings, r.next, polls[1..]);
      if k > 1 {
        assert Before(r.next, rs[1..], k - 1) == rs[k - 1].next;
      }
    }
  }

  /** Join creates an empty chunk map and rotation only renumbers the keys it
      already has, so from join onwards the map stays empty and every save
      (leave or rotation) is made with the empty map. */
  lemma {:induction false} ChunkMapStaysEmpty(settings: Settings, st: GuildState, polls: seq<Poll>)
    requires st.chunkNumMap == map[]
    ensures forall k :: 0 <= k < |polls| ==>
              Run(settings, st, polls)[k].next.chunkNumMap == map[]
              && (Run(settings, st, polls)[k].save.Some? ==> Run(settings, st, polls)[k].save.value == map[])
    decreases |polls|
  {
    if |polls| > 0 {
      var r := Step(settings, st, polls[0]);
      assert r.next.chunkNumMap == map[];
      ChunkMapStaysEmpty(settings, r.next, polls[1..]);
      var rs := Run(settings, st, polls);
      assert forall k :: 1 <= k < |polls| ==> rs[k] == Run(settings, r.next, polls[1..])[k - 1];
    }
  }

  /** Once the guild has a cooldown entry it keeps one for ever: the clean-up
      of expired entries never runs. */
  lemma {:induction false} CooldownEntryNeverRemoved(settings: Settings, st: GuildState, polls: seq<Poll>)
    requires st.cooldownExpiry.Some?
    ensures forall k :: 0 <= k < |polls| ==> Run(settings, st, polls)[k].next.cooldownExpiry.Some?
    decreases |polls|
  {
    if |polls| > 0 {
      var r := Step(settings, st, polls[0]);
      CooldownEntryNeverRemoved(settings, r.next, polls[1..]);
      var rs := Run(settings, st, polls);
      assert forall k :: 1 <= k < |polls| ==> rs[k] == Run(settings, r.next, polls[1..])[k - 1];
    }
  }

  /** After a leave at poll `i`, no poll before the cooldown has run out joins
      again, unless another leave came in between (which moves the expiry). */
  lemma NoRejoinDuringCooldown(settings: Settings, st: GuildState, polls: seq<Poll>, i: nat, j: nat)
    requires i < j < |polls|
    requires Run(settings, st, polls)[i].action == Leave
    requires forall k :: i < k < j ==> Run(settings, st, polls)[k].action != Leave
    requires Run(settings, st, polls)[j].action.Join?
    ensures polls[j].now >= polls[i].effectTime + Config.COOLDOWN_SECONDS
  {
    var rs := Run(settings, st, polls);
    var expiry := Some(polls[i].effectTime + Config.COOLDOWN_SECONDS);
    RunExpiry(settings, st, polls, i);
    var k := i + 1;
    while k < j
      invariant i + 1 <= k <= j
      invariant Before(st, rs, k).cooldownExpiry == expiry
    {
      RunExpiry(settings, st, polls, k);
      k := k + 1;
    }
    RunExpiry(settings, st, polls, j);
  }

  /** How one poll of a run moves the cooldown entry: a leave sets it, any
      other action keeps it, and a join needs it to have run out. */
  lemma RunExpiry(settings: Settings, st: GuildState, polls: seq<Poll>, k: nat)
    requires k < |polls|
    ensures var rs := Run(settings, st, polls);
            && (rs[k].action == Leave ==>
                  Before(st, rs, k + 1).cooldownExpiry == Some(polls[k].effectTime + Config.COOLDOWN_SECONDS))
            && (rs[k].action != Leave ==> Before(st, rs, k + 1).cooldownExpiry == Before(st, rs, k).cooldownExpiry)
            && (rs[k].action.Join? ==> !InCooldown(polls[k].now, Before(st, rs, k)))
  {
    RunSteps(settings, st, polls, k);
  }

  /** While connected, the cooldown entry plays no part in the decision. */
  lemma CooldownIgnoredWhileConnected(settings: Settings, st: GuildState, poll: Poll, other: Option<int>)
    requires st.connected.Some?
    ensures Step(settings, st.(cooldownExpiry := other), poll).action == Step(settings, st, poll).action
    ensures Step(settings, st.(cooldownExpiry := other), poll).save == Step(settings, st, poll).save
  {
  }

  /** An expired entry, though never deleted, never blocks a join. */
  lemma ExpiredCooldownNeverBlocks(settings: Settings, st: GuildState, poll: Poll)
    requires st.connected.None? && st.cooldownExpiry.Some? && poll.now >= st.cooldownExpiry.value
    requires FindInterestingChannel(poll.channels, settings.allow).Some?
    ensures Step(settings, st, poll).action.Join?
    ensures Step(settings, st, poll).next.cooldownExpiry == st.cooldownExpiry
  {
  }

  /** A guild that only ever joins, leaves and rotates through Step keeps its
      fields consistent: a recording guild is connected and timed, and a
      disconnected guild carries no timer and no chunk numbers. */
  predicate Consistent(st: GuildState) {
    && (st.recording ==> st.connected.Some? && st.chunkStart.Some?)
    && (st.connected.None? ==> !st.recording && st.chunkStart.None? && st.chunkNumMap == map[])
  }

  lemma StepPreservesConsistency(settings: Settings, st: GuildState, poll: Poll)
    requires Consistent(st)
    ensures Consistent(Step(settings, st, poll).next)
  {
  }

  /** In a consistent state a recording whose chunk has run for CHUNK_TIME in a
      still-interesting channel is always rotated and its chunk saved. */
  lemma RecordingIsAlwaysRotated(settings: Settings, st: GuildState, poll: Poll)
    requires Consistent(st) && st.recording
    requires IsChannelInteresting(Lookup(poll.channels, st.connected.value), settings.allow)
    requires poll.now - st.chunkStart.value >= settings.chunkTime
    ensures Step(settings, st, poll).action == Rotate
    ensures Step(settings, st, poll).save == Some(st.chunkNumMap)
    ensures Step(settings, st, poll).next.chunkStart == Some(poll.effectTime)
  {
  }

  /** User 7 deafens in channel 1 and the poll at time 100 sees it: the bot
      leaves (its clock reads 103 after the three-second sleep) and starts a
      cooldown. The user undeafens; the polls every CHECK_INTERVAL seconds up
      to the expiry leave the bot away, and the first poll after it rejoins. */
  lemma DeafenThenUndeafenScenario()
    ensures
      var settings := Settings(Allow({7}, []), Config.DEFAULT_CHUNK_TIME);
      var heard := [Channel(1, [Member(7, false, false, false)])];
      var deafened := [Channel(1, [Member(7, false, true, false)])];
      var st := GuildState(Some(1), true, Some(0), map[], None);
      var t1 := 100 + 4 * Config.CHECK_INTERVAL;
      var t2 := 100 + 5 * Config.CHECK_INTERVAL;
      var r1 := Step(settings, st, Poll(100, 103, deafened, NoFaults));
      var r2 := Step(settings, r1.next, Poll(t1, t1, heard, NoFaults));
      var r3 := Step(settings, r2.next, Poll(t2, t2, heard, NoFaults));
      && r1.action == Leave && r1.save == Some(map[]) && r1.next.cooldownExpiry == Some(113)
      && t1 < 113 <= t2
      && r2.action == NoAction
      && r3.action == Join(1) && r3.next.chunkStart == Some(t2)
  {
  }

  /** From a guild the bot has never joined, every chunk of every recording is
      saved with the empty chunk map. */
  lemma FromStartEverySaveIsEmpty(settings: Settings, polls: seq<Poll>)
    ensures forall k :: 0 <= k < |polls| && Run(settings, Initial, polls)[k].save.Some? ==>
              Run(settings, Initial, polls)[k].save.value == map[]
  {
    ChunkMapStaysEmpty(settings, Initial, polls);
  }
}

=== FILE: paths.dfy ===
/** Path arithmetic of the recorder: `os.path.join`, the per-user folder of
    `ensure_folder` (app.py:57-62), chunk file names (app.py:184-185) and the
    glob pattern `*_part*.mp3` (app.py:66). Paths are plain strings with '/'
    as separator. */
module Paths {
  import opened Text

  /** The directory part `os.path.join(folder, name)` puts before `name`. */
  function DirPrefix(folder: string): (r: string)
    ensures |r| == 0 || r[|r| - 1] == '/'
    ensures |r| == 0 <==> |folder| == 0
    ensures r == folder || r == folder + "/"
  {
    if |folder| == 0 || folder[|folder| - 1] == '/' then folder else folder + "/"
  }

  /** `os.path.join(a, b)`: an absolute `b` replaces `a`; otherwise a separator
      is inserted unless `a` is empty or already ends with one. */
  function PathJoin(a: string, b: string): (r: string)
    ensures |b| > 0 && b[0] == '/' ==> r == b
    ensures (|b| == 0 || b[0] != '/') ==> r == DirPrefix(a) + b
  {
    if |b| > 0 && b[0] == '/' then b else DirPrefix(a) + b
  }

  /** `path` is an entry of directory `folder`. */
  predicate InFolder(path: string, folder: string) {
    var d := DirPrefix(folder);
    |d| < |path| && path[..|d|] == d && '/' !in path[|d|..]
  }

  /** The entry name of a path inside `folder`. */
  function EntryName(path: string, folder: string): (r: string)
    requires InFolder(path, folder)
    ensures |r| > 0 && '/' !in r
    ensures path == DirPrefix(folder) + r
  {
    path[|DirPrefix(folder)|..]
  }

  /** Joining a plain name to a folder gives an entry of that folder. */
  lemma JoinIsEntry(folder: string, name: string)
    requires |name| > 0 && '/' !in name
    ensures InFolder(PathJoin(folder, name), folder)
    ensures EntryName(PathJoin(folder, name), folder) == name
  {
    var d := DirPrefix(folder);
    assert name[0] != '/';
    assert (d + name)[..|d|] == d && (d + name)[|d|..] == name;
  }

  /** Length of the part of `s` up to and including its last '/' (0 if none). */
  function SlashEnd(s: string): (n: nat)
    ensures n <= |s|
  {
    if |s| == 0 then 0
    else if s[|s| - 1] == '/' then |s|
    else SlashEnd(s[..|s| - 1])
  }

  lemma {:induction false} SlashEndOfEntry(d: string, r: string)
    requires |d| == 0 || d[|d| - 1] == '/'
    requires '/' !in r
    ensures SlashEnd(d + r) == |d|
    decreases |r|
  {
    if |r| == 0 {
      assert d + r == d;
    } else {
      var s := d + r;
      assert s[|s| - 1] == r[|r| - 1];
      assert s[..|s| - 1] == d + r[..|r| - 1];
      SlashEndOfEntry(d, r[..|r| - 1]);
    }
  }

  /** An entry belongs to one directory only. */
  lemma EntryOfOneFolder(path: string, f: string, g: string)
    requires InFolder(path, f) && InFolder(path, g)
    ensures DirPrefix(f) == DirPrefix(g)
  {
    SlashEndOfEntry(DirPrefix(f), EntryName(path, f));
    SlashEndOfEntry(DirPrefix(g), EntryName(path, g));
  }

  /** The directory of an entry can be read off the path itself. */
  lemma EntryDir(path: string, f: string)
    ensures InFolder(path, f) ==> DirPrefix(f) == path[..SlashEnd(path)]
  {
    if InFolder(path, f) {
      SlashEndOfEntry(DirPrefix(f), EntryName(path, f));
    }
  }

  /** Folders with different directory prefixes share no entry. */
  lemma DisjointFolders(f: string, g: string)
    requires DirPrefix(f) != DirPrefix(g)
    ensures forall k :: InFolder(k, f) ==> !InFolder(k, g)
  {
    forall k | InFolder(k, f)
      ensures !InFolder(k, g)
    {
      EntryDir(k, f);
      EntryDir(k, g);
    }
  }

  // ---------------------------------------------------------------- ensure_folder

  /** `"".join(x for x in name if x.isalnum())`, with ASCII `isalnum`. */
  function SafeName(name: string): (r: string)
    ensures forall i :: 0 <= i < |r| ==> IsAlnum(r[i])
    ensures |r| <= |name|
  {
    if |name| == 0 then ""
    else (if IsAlnum(name[0]) then [name[0]] else "") + SafeName(name[1..])
  }

  /** A single character is kept when it is a letter or digit and dropped
      otherwise; never replaced. */
  lemma SafeNameOfChar(c: char)
    ensures SafeName([c]) == (if IsAlnum(c) then [c] else "")
  {
    assert [c][1..] == "";
  }

  /** The sanitised name holds exactly the letters and digits of the name. */
  lemma {:induction false} SafeNameMembers(name: string)
    ensures forall c :: c in SafeName(name) <==> c in name && IsAlnum(c)
    decreases |name|
  {
    if |name| > 0 {
      SafeNameMembers(name[1..]);
      assert name == [name[0]] + name[1..];
      assert forall c :: c in name <==> c == name[0] || c in name[1..];
    }
  }

  /** Sanitising distributes over concatenation: it filters characters one by
      one. */
  lemma {:induction false} SafeNameConcat(a: string, b: string)
    ensures SafeName(a + b) == SafeName(a) + SafeName(b)
    decreases |a|
  {
    if |a| == 0 {
      assert a + b == b;
    } else {
      assert (a + b)[1..] == a[1..] + b;
      SafeNameConcat(a[1..], b);
    }
  }

  /** A name made of letters and digits only is kept whole. */
  lemma {:induction false} SafeNameKeepsAlnum(name: string)
    requires forall i :: 0 <= i < |name| ==> IsAlnum(name[i])
    ensures SafeName(name) == name
    decreases |name|
  {
    if |name| > 0 {
      SafeNameKeepsAlnum(name[1..]);
      assert name == [name[0]] + name[1..];
    }
  }

  /** Sanitising twice changes nothing. */
  lemma SafeNameIdempotent(name: string)
    ensures SafeName(SafeName(name)) == SafeName(name)
  {
    SafeNameKeepsAlnum(SafeName(name));
  }

  /** The folder name `<safe_name>_<user_id>` under the base directory. */
  function UserFolder(base: string, id: nat, name: string): (r: string)
    ensures |r| > 0 && r[|r| - 1] != '/'
    ensures DirPrefix(r) == r + "/"
  {
    var leaf := SafeName(name) + "_" + NatToString(id);
    var r := PathJoin(base, leaf);
    assert leaf[|leaf| - 1] == NatToString(id)[|NatToString(id)| - 1];
    assert r[|r| - 1] == leaf[|leaf| - 1];
    r
  }

  /** Position of the first '_' of `s` (|s| if none). */
  function UnderscoreAt(s: string): (n: nat)
    ensures n <= |s|
  {
    if |s| == 0 || s[0] == '_' then 0 else 1 + UnderscoreAt(s[1..])
  }

  lemma {:induction false} UnderscoreAfter(a: string, x: string)
    requires '_' !in a
    ensures UnderscoreAt(a + "_" + x) == |a|
    decreases |a|
  {
    if |a| > 0 {
      assert (a + "_" + x)[1..] == a[1..] + "_" + x;
      UnderscoreAfter(a[1..], x);
    }
  }

  /** Splitting at the first underscore. */
  lemma SplitAtUnderscore(a: string, x: string, b: string, y: string)
    requires '_' !in a && '_' !in b
    requires a + "_" + x == b + "_" + y
    ensures a == b && x == y
  {
    var s := a + "_" + x;
    UnderscoreAfter(a, x);
    UnderscoreAfter(b, y);
    assert a == s[..|a|] && b == (b + "_" + y)[..|b|];
    assert x == s[|a| + 1..] && y == (b + "_" + y)[|b| + 1..];
  }

  /** Two users never share a folder: the sanitised name contains no '_', so
      the id after the first '_' is recovered from the folder. */
  lemma UserFolderInjective(base: string, u: nat, nu: string, v: nat, nv: string)
    requires UserFolder(base, u, nu) == UserFolder(base, v, nv)
    ensures u == v
  {
    var lu := SafeName(nu) + "_" + NatToString(u);
    var lv := SafeName(nv) + "_" + NatToString(v);
    assert lu[0] != '/' && lv[0] != '/';
    var d := DirPrefix(base);
    assert d + lu == d + lv;
    assert lu == (d + lu)[|d|..] && lv == (d + lv)[|d|..];
    SplitAtUnderscore(SafeName(nu), NatToString(u), SafeName(nv), NatToString(v));
    NatToStringInjective(u, v);
  }

  // ---------------------------------------------------------------- chunk names

  /** `f"{user_name}_part{chunk_num}.mp3"`. */
  function ChunkFileName(userName: string, n: nat): string {
    userName + "_part" + NatToString(n) + ".mp3"
  }

  /** The glob `*_part*.mp3` on one directory entry: it ends in ".mp3", has
      "_part" somewhere before that suffix, and (as for every `*` that starts a
      glob pattern) does not start with '.'. */
  predicate MatchesChunkPattern(name: string) {
    && |name| >= 9
    && name[0] != '.'
    && name[|name| - 4..] == ".mp3"
    && exists p :: 0 <= p <= |name| - 9 && PartAt(name, p)
  }

  /** "_part" occurs in `name` at position `p`. */
  predicate PartAt(name: string, p: int) {
    0 <= p && p + 5 <= |name| && name[p..p + 5] == "_part"
  }

  /** Every chunk the recorder writes is found again by the merge glob, unless
      the user name starts with a dot. */
  lemma ChunkFileNameMatches(userName: string, n: nat)
    requires |userName| == 0 || userName[0] != '.'
    ensures MatchesChunkPattern(ChunkFileName(userName, n))
  {
    var s := ChunkFileName(userName, n);
    var p := |userName|;
    assert s[p..p + 5] == "_part";
    assert PartAt(s, p);
    assert s[|s| - 4..] == ".mp3";
  }

  /** A chunk file name is a plain name when the user name is. */
  lemma ChunkFileNameIsPlain(userName: string, n: nat)
    requires '/' !in userName
    ensures |ChunkFileName(userName, n)| > 0 && '/' !in ChunkFileName(userName, n)
  {
    var d := NatToString(n);
    assert forall i :: 0 <= i < |d| ==> d[i] != '/';
    assert ChunkFileName(userName, n) == userName + "_part" + d + ".mp3";
  }

  /** A name with no 'p' before its last four characters is never a chunk
      name. */
  lemma NoPartNoMatch(name: string)
    requires |name| >= 9 && 'p' !in name[..|name| - 4]
    ensures !MatchesChunkPattern(name)
  {
    forall p | 0 <= p <= |name| - 9
      ensures !PartAt(name, p)
    {
      assert name[p + 1] == name[..|name| - 4][p + 1];
      assert name[p..p + 5][1] == name[p + 1];
    }
  }

  const MASTER_NAME: string := "Full_Recording.mp3"
  const TEMP_NAME: string := "_temp_master.mp3"
  const LIST_NAME: string := "files_to_merge.txt"

  /** The merge's own files are never taken for chunks. */
  lemma FixedNamesAreNotChunks()
    ensures !MatchesChunkPattern(MASTER_NAME)
    ensures !MatchesChunkPattern(TEMP_NAME)
    ensures !MatchesChunkPattern(LIST_NAME)
  {
    assert 'p' !in MASTER_NAME[..|MASTER_NAME| - 4];
    NoPartNoMatch(MASTER_NAME);
    assert LIST_NAME[|LIST_NAME| - 4..] != ".mp3";
    forall p | 0 <= p <= |TEMP_NAME| - 9
      ensures !PartAt(TEMP_NAME, p)
    {
      assert p == 0 || p == 1 || p == 2 || p == 3 || p == 4 || p == 5 || p == 6 || p == 7;
      assert TEMP_NAME[p..p + 5][0] == TEMP_NAME[p] && TEMP_NAME[p..p + 5][1] == TEMP_NAME[p + 1];
    }
  }
}

=== FILE: policy.dfy ===
/** Which voice channels are worth recording (app.py:211-231). */
module Policy {
  import opened Common

  /** A channel member with the voice-state flags the bot looks at. */
  datatype Member = Member(id: UserId, bot: bool, selfDeaf: bool, deaf: bool)

  /** A voice channel and the members currently in it. */
  datatype Channel = Channel(id: ChannelId, members: seq<Member>)

  /** The two allow-lists: ALLOWED_USERS (a set) and ALLOWED_CHANNELS (a list;
      empty means every channel). */
  datatype Allow = Allow(users: set<UserId>, channels: seq<ChannelId>)

  /** A member whose presence makes a channel worth recording. */
  predicate Qualifies(m: Member, users: set<UserId>) {
    !m.bot && m.id in users && !m.selfDeaf && !m.deaf
  }

  /** The channel allow-list admits the channel. */
  predicate ChannelAllowed(id: ChannelId, channels: seq<ChannelId>) {
    |channels| == 0 || id in channels
  }

  /** The member loop of app.py:219-224: bots are skipped, the first whitelisted
      member that is neither self- nor server-deafened answers true. */
  function AnyQualifying(members: seq<Member>, users: set<UserId>): (b: bool)
    ensures b <==> exists i :: 0 <= i < |members| && Qualifies(members[i], users)
  {
    if |members| == 0 then false
    else if members[0].bot then
      assert forall i :: 1 <= i < |members| ==> members[i] == members[1..][i - 1];
      AnyQualifying(members[1..], users)
    else if members[0].id in users && !members[0].selfDeaf && !members[0].deaf then true
    else
      assert forall i :: 1 <= i < |members| ==> members[i] == members[1..][i - 1];
      AnyQualifying(members[1..], users)
  }

  /** `is_channel_interesting`: fail-closed on a missing channel, an empty
      channel, an empty user allow-list and a channel outside a non-empty
      channel allow-list; otherwise true iff some member qualifies. */
  function IsChannelInteresting(channel: Option<Channel>, allow: Allow): (b: bool)
    ensures channel.None? ==> !b
    ensures channel.Some? && |channel.value.members| == 0 ==> !b
    ensures |allow.users| == 0 ==> !b
    ensures channel.Some? && |allow.channels| > 0 && channel.value.id !in allow.channels ==> !b
    ensures b <==> channel.Some? && ChannelAllowed(channel.value.id, allow.channels)
                   && exists i :: 0 <= i < |channel.value.members|
                                  && Qualifies(channel.value.members[i], allow.users)
  {
    if channel.None? || |channel.value.members| == 0 then false
    else if |allow.users| == 0 then false
    else if |allow.channels| > 0 && channel.value.id !in allow.channels then false
    else AnyQualifying(channel.value.members, allow.users)
  }

  /** Shorthand for a channel from the guild's list. */
  predicate Interesting(c: Channel, allow: Allow) {
    IsChannelInteresting(Some(c), allow)
  }

  /** `i` is the position of the first interesting channel of `channels`. */
  ghost predicate IsFirstInteresting(channels: seq<Channel>, i: int, allow: Allow) {
    && 0 <= i < |channels|
    && Interesting(channels[i], allow)
    && forall j :: 0 <= j < i ==> !Interesting(channels[j], allow)
  }

  /** `find_interesting_channel`: the first interesting channel in guild order,
      or None when there is none. */
  function FindInterestingChannel(channels: seq<Channel>, allow: Allow): (r: Option<Channel>)
    ensures r.None? <==> forall i :: 0 <= i < |channels| ==> !Interesting(channels[i], allow)
    ensures r.Some? ==> exists i :: IsFirstInteresting(channels, i, allow) && channels[i] == r.value
  {
    if |channels| == 0 then None
    else if Interesting(channels[0], allow) then
      assert IsFirstInteresting(channels, 0, allow);
      Some(channels[0])
    else
      var r := FindInterestingChannel(channels[1..], allow);
      assert forall i :: 1 <= i < |channels| ==> channels[i] == channels[1..][i - 1];
      assert forall i :: IsFirstInteresting(channels[1..], i, allow) ==>
               IsFirstInteresting(channels, i + 1, allow);
      r
  }

  /** A bot joining a channel never makes it interesting or stops it being
      interesting, whatever the allow-lists say about its id. */
  lemma BotsNeverCount(id: ChannelId, members: seq<Member>, bot: Member, allow: Allow)
    requires bot.bot
    ensures IsChannelInteresting(Some(Channel(id, members + [bot])), allow)
         == IsChannelInteresting(Some(Channel(id, members)), allow)
  {
    var ms := members + [bot];
    if exists i :: 0 <= i < |ms| && Qualifies(ms[i], allow.users) {
      var i :| 0 <= i < |ms| && Qualifies(ms[i], allow.users);
      assert i < |members| && members[i] == ms[i];
    }
    if exists i :: 0 <= i < |members| && Qualifies(members[i], allow.users) {
      var i :| 0 <= i < |members| && Qualifies(members[i], allow.users);
      assert ms[i] == members[i];
    }
  }

  /** The channel found is interesting, and every channel before it is not. */
  lemma FoundChannelIsFirstMatch(channels: seq<Channel>, allow: Allow, k: int)
    requires FindInterestingChannel(channels, allow).Some?
    requires 0 <= k < |channels| && Interesting(channels[k], allow)
    ensures Interesting(FindInterestingChannel(channels, allow).value, allow)
    ensures exists i :: 0 <= i <= k && channels[i] == FindInterestingChannel(channels, allow).value
  {
    var i :| IsFirstInteresting(channels, i, allow)
             && channels[i] == FindInterestingChannel(channels, allow).value;
    assert i <= k;
  }
}

=== FILE: recording.dfy ===
/** `recording_finished` (app.py:168-207): each user's finished audio is saved
    as a chunk file in that user's folder, then every folder that received a
    chunk is merged into its archive. */
module Recording {
  import opened Common
  import opened Text
  import opened Paths
  import opened LexOrder
  import opened Sink
  import opened Storage

  /** `guild.get_member(user_id)`: the member's name, if the guild knows them. */
  type NameOf = UserId -> Option<string>

  /** `member.name if member else str(user_id)`. */
  function UserName(nameOf: NameOf, u: UserId): string {
    nameOf(u).GetOr(NatToString(u))
  }

  /** `chunk_num_map.get(user_id, 1)`. */
  function ChunkNumber(m: ChunkMap, u: UserId): nat {
    if u in m then m[u] else 1
  }

  /** The folder `ensure_folder` returns for the user. */
  function FolderOf(base: string, nameOf: NameOf, u: UserId): string {
    UserFolder(base, u, UserName(nameOf, u))
  }

  /** The chunk file the user's audio is written to. */
  function ChunkPath(base: string, m: ChunkMap, nameOf: NameOf, u: UserId): string {
    PathJoin(FolderOf(base, nameOf, u), ChunkFileName(UserName(nameOf, u), ChunkNumber(m, u)))
  }

  /** The user's audio is written: the sink holds bytes for them, and their
      name makes a file name (a name with '/' points into a directory that does
      not exist, so `open` raises and the user is skipped). */
  predicate Saves(s: Sink, nameOf: NameOf, u: UserId) {
    u in s.audio && |s.audio[u]| > 0 && '/' !in UserName(nameOf, u)
  }

  /** A written chunk is an entry of its user's folder, named after the user
      and the chunk number. */
  lemma ChunkPathInFolder(base: string, m: ChunkMap, nameOf: NameOf, u: UserId)
    requires '/' !in UserName(nameOf, u)
    ensures InFolder(ChunkPath(base, m, nameOf, u), FolderOf(base, nameOf, u))
    ensures EntryName(ChunkPath(base, m, nameOf, u), FolderOf(base, nameOf, u))
            == ChunkFileName(UserName(nameOf, u), ChunkNumber(m, u))
  {
    var name := ChunkFileName(UserName(nameOf, u), ChunkNumber(m, u));
    var n := NatToString(ChunkNumber(m, u));
    assert name == UserName(nameOf, u) + "_part" + n + ".mp3";
    assert forall i :: 0 <= i < |n| ==> n[i] != '/';
    assert '/' !in name;
    JoinIsEntry(FolderOf(base, nameOf, u), name);
  }

  /** Two users never write the same chunk file: the files sit in different
      folders. */
  lemma ChunkPathsDistinct(base: string, m: ChunkMap, nameOf: NameOf, u: UserId, v: UserId)
    requires '/' !in UserName(nameOf, u) && '/' !in UserName(nameOf, v)
    requires ChunkPath(base, m, nameOf, u) == ChunkPath(base, m, nameOf, v)
    ensures u == v
  {
    ChunkPathInFolder(base, m, nameOf, u);
    ChunkPathInFolder(base, m, nameOf, v);
    var fu := FolderOf(base, nameOf, u);
    var fv := FolderOf(base, nameOf, v);
    EntryOfOneFolder(ChunkPath(base, m, nameOf, u), fu, fv);
    assert fu == (fu + "/")[..|fu|] && fv == (fv + "/")[..|fv|];
    UserFolderInjective(base, u, UserName(nameOf, u), v, UserName(nameOf, v));
  }

  /** The disk after the save loop and the set `folders_to_merge`. */
  datatype Saved = Saved(fs: FileSystem, folders: set<string>)

  /** The save loop over `users` (the sink's dict order): a user with no bytes
      or an unusable name is skipped and their folder is not queued for
      merging; otherwise their bytes are written to their chunk file and their
      folder is queued. */
  function SaveChunks(fs: FileSystem, s: Sink, users: seq<UserId>, m: ChunkMap, nameOf: NameOf,
                      base: string): Saved
    decreases |users|
  {
    if |users| == 0 then Saved(fs, {})
    else
      var u := users[0];
      var fs1 := if Saves(s, nameOf, u) then fs[ChunkPath(base, m, nameOf, u) := s.audio[u]] else fs;
      var rest := SaveChunks(fs1, s, users[1..], m, nameOf, base);
      Saved(rest.fs, (if Saves(s, nameOf, u) then {FolderOf(base, nameOf, u)} else {}) + rest.folders)
  }

  /** A folder is queued for merging iff one of the users saved a chunk in
      it. */
  lemma SavedFolders(fs: FileSystem, s: Sink, users: seq<UserId>, m: ChunkMap, nameOf: NameOf, base: string)
    ensures forall f :: f in SaveChunks(fs, s, users, m, nameOf, base).folders <==>
              exists i :: 0 <= i < |users| && Saves(s, nameOf, users[i]) && f == FolderOf(base, nameOf, users[i])
  {
    forall f
      ensures f in SaveChunks(fs, s, users, m, nameOf, base).folders <==>
                exists i :: 0 <= i < |users| && Saves(s, nameOf, users[i]) && f == FolderOf(base, nameOf, users[i])
    {
      SavedFolder(fs, s, users, m, nameOf, base, f);
    }
  }

  lemma {:induction false} SavedFolder(fs: FileSystem, s: Sink, users: seq<UserId>, m: ChunkMap,
                                       nameOf: NameOf, base: string, f: string)
    ensures f in SaveChunks(fs, s, users, m, nameOf, base).folders <==>
              exists i :: 0 <= i < |users| && Saves(s, nameOf, users[i]) && f == FolderOf(base, nameOf, users[i])
    decreases |users|
  {
    if |users| > 0 {
      var u := users[0];
      var rest := users[1..];
      var fs1 := if Saves(s, nameOf, u) then fs[ChunkPath(base, m, nameOf, u) := s.audio[u]] else fs;
      var here: set<string> := if Saves(s, nameOf, u) then {FolderOf(base, nameOf, u)} else {};
      assert SaveChunks(fs, s, users, m, nameOf, base).folders == here + SaveChunks(fs1, s, rest, m, nameOf, base).folders;
      SavedFolder(fs1, s, rest, m, nameOf, base, f);
      if exists i :: 0 <= i < |users| && Saves(s, nameOf, users[i]) && f == FolderOf(base, nameOf, users[i]) {
        var i :| 0 <= i < |users| && Saves(s, nameOf, users[i]) && f == FolderOf(base, nameOf, users[i]);
        if i > 0 {
          assert rest[i - 1] == users[i];
        }
      }
      if exists i :: 0 <= i < |rest| && Saves(s, nameOf, rest[i]) && f == FolderOf(base, nameOf, rest[i]) {
        var i :| 0 <= i < |rest| && Saves(s, nameOf, rest[i]) && f == FolderOf(base, nameOf, rest[i]);
        assert users[i + 1] == rest[i];
      }
    }
  }

  /** A user who saves finds their bytes in their chunk file afterwards. */
  lemma {:induction false} SavedChunkOf(fs: FileSystem, s: Sink, users: seq<UserId>, m: ChunkMap,
                                        nameOf: NameOf, base: string, u: UserId)
    requires u in users && Saves(s, nameOf, u)
    ensures ChunkPath(base, m, nameOf, u) in SaveChunks(fs, s, users, m, nameOf, base).fs
    ensures SaveChunks(fs, s, users, m, nameOf, base).fs[ChunkPath(base, m, nameOf, u)] == s.audio[u]
    decreases |users|
  {
    var v := users[0];
    var fs1 := if Saves(s, nameOf, v) then fs[ChunkPath(base, m, nameOf, v) := s.audio[v]] else fs;
    assert SaveChunks(fs, s, users, m, nameOf, base).fs == SaveChunks(fs1, s, users[1..], m, nameOf, base).fs;
    if u in users[1..] {
      SavedChunkOf(fs1, s, users[1..], m, nameOf, base, u);
    } else {
      assert v == u;
      SaveFrame(fs1, s, users[1..], m, nameOf, base);
      forall j | 0 <= j < |users[1..]| && Saves(s, nameOf, users[1..][j])
        ensures ChunkPath(base, m, nameOf, u) != ChunkPath(base, m, nameOf, users[1..][j])
      {
        if ChunkPath(base, m, nameOf, u) == ChunkPath(base, m, nameOf, users[1..][j]) {
          ChunkPathsDistinct(base, m, nameOf, u, users[1..][j]);
        }
      }
    }
  }

  /** Every user who saves finds their bytes in their chunk file afterwards. */
  lemma SavedChunks(fs: FileSystem, s: Sink, users: seq<UserId>, m: ChunkMap, nameOf: NameOf, base: string)
    ensures forall u :: u in users && Saves(s, nameOf, u) ==>
              ChunkPath(base, m, nameOf, u) in SaveChunks(fs, s, users, m, nameOf, base).fs
              && SaveChunks(fs, s, users, m, nameOf, base).fs[ChunkPath(base, m, nameOf, u)] == s.audio[u]
  {
    forall u | u in users && Saves(s, nameOf, u)
      ensures ChunkPath(base, m, nameOf, u) in SaveChunks(fs, s, users, m, nameOf, base).fs
              && SaveChunks(fs, s, users, m, nameOf, base).fs[ChunkPath(base, m, nameOf, u)] == s.audio[u]
    {
      SavedChunkOf(fs, s, users, m, nameOf, base, u);
    }
  }

  /** The save loop writes nothing but the chunk files of the users who save. */
  lemma {:induction false} SaveFrame(fs: FileSystem, s: Sink, users: seq<UserId>, m: ChunkMap,
                                     nameOf: NameOf, base: string)
    ensures forall k :: k in SaveChunks(fs, s, users, m, nameOf, base).fs ==>
              k in fs || exists i :: 0 <= i < |users| && Saves(s, nameOf, users[i]) && k == ChunkPath(base, m, nameOf, users[i])
    ensures forall k :: k in fs && (forall i :: 0 <= i < |users| && Saves(s, nameOf, users[i]) ==> k != ChunkPath(base, m, nameOf, users[i]))
              ==> k in SaveChunks(fs, s, users, m, nameOf, base).fs && SaveChunks(fs, s, users, m, nameOf, base).fs[k] == fs[k]
    decreases |users|
  {
    if |users| > 0 {
      var u := users[0];
      var fs1 := if Saves(s, nameOf, u) then fs[ChunkPath(base, m, nameOf, u) := s.audio[u]] else fs;
      var r := SaveChunks(fs, s, users, m, nameOf, base).fs;
      assert r == SaveChunks(fs1, s, users[1..], m, nameOf, base).fs;
      SaveFrame(fs1, s, users[1..], m, nameOf, base);
      forall k | k in r
        ensures k in fs || exists i :: 0 <= i < |users| && Saves(s, nameOf, users[i]) && k == ChunkPath(base, m, nameOf, users[i])
      {
        if exists i :: 0 <= i < |users| - 1 && Saves(s, nameOf, users[1..][i]) && k == ChunkPath(base, m, nameOf, users[1..][i]) {
          var i :| 0 <= i < |users| - 1 && Saves(s, nameOf, users[1..][i]) && k == ChunkPath(base, m, nameOf, users[1..][i]);
          assert users[i + 1] == users[1..][i];
        }
      }
      forall k | k in fs && (forall i :: 0 <= i < |users| && Saves(s, nameOf, users[i]) ==> k != ChunkPath(base, m, nameOf, users[i]))
        ensures k in r && r[k] == fs[k]
      {
        assert forall i :: 0 <= i < |users| - 1 ==> users[1..][i] == users[i + 1];
      }
    }
  }

  // ---------------------------------------------------------------- merging

  /** The merge loop over `folders_to_merge`, in the order `order` the set is
      iterated. */
  ghost function MergeAll(fs: FileSystem, order: seq<string>, ffmpeg: Transcoder): FileSystem
    decreases |order|
  {
    if |order| == 0 then fs else MergeAll(Merge(fs, order[0], ffmpeg).fs, order[1..], ffmpeg)
  }

  /** No two folders of the list share a directory (so none is listed twice). */
  predicate DistinctDirs(order: seq<string>) {
    forall i, j :: 0 <= i < |order| && 0 <= j < |order| && i != j ==> DirPrefix(order[i]) != DirPrefix(order[j])
  }

  /** Merging folders other than `f` leaves `f`'s entries alone. */
  lemma {:induction false} MergeAllElsewhere(fs: FileSystem, order: seq<string>, f: string, ffmpeg: Transcoder)
    requires forall i :: 0 <= i < |order| ==> DirPrefix(order[i]) != DirPrefix(f)
    ensures SameIn(fs, MergeAll(fs, order, ffmpeg), f)
    decreases |order|
  {
    if |order| > 0 {
      MergeElsewhere(fs, order[0], f, ffmpeg);
      MergeAllElsewhere(Merge(fs, order[0], ffmpeg).fs, order[1..], f, ffmpeg);
    }
  }

  /** Whatever the iteration order, a listed folder ends up exactly as one
      merge of it on the disk before the loop leaves it. */
  lemma {:induction false} MergeAllAt(fs: FileSystem, order: seq<string>, f: string, ffmpeg: Transcoder)
    requires f in order && DistinctDirs(order)
    ensures SameIn(MergeAll(fs, order, ffmpeg), Merge(fs, f, ffmpeg).fs, f)
    decreases |order|
  {
    var g := order[0];
    var fs1 := Merge(fs, g, ffmpeg).fs;
    var rest := order[1..];
    assert forall i :: 0 <= i < |rest| ==> rest[i] == order[i + 1];
    if g == f {
      MergeAllElsewhere(fs1, rest, f, ffmpeg);
    } else {
      assert f in rest;
      MergeElsewhere(fs, g, f, ffmpeg);
      MergeAllAt(fs1, rest, f, ffmpeg);
      MergeCongruent(fs1, fs, f, ffmpeg);
    }
  }

  // ---------------------------------------------------------------- recording_finished

  /** `recording_finished`: save every user's chunk in dict order, then merge
      every queued folder. Python iterates the set in an order of its own; the
      folders are taken here in string order, and the lemmas below hold for
      every order (see `MergeAllAt`). */
  ghost function RecordingFinished(fs: FileSystem, s: Sink, m: ChunkMap, nameOf: NameOf, base: string,
                                   ffmpeg: Transcoder): FileSystem
  {
    var saved := SaveChunks(fs, s, s.order, m, nameOf, base);
    MergeAll(saved.fs, SortSet(saved.folders), ffmpeg)
  }

  lemma SlashAppendInjective(a: string, b: string)
    ensures a + "/" == b + "/" ==> a == b
  {
    if a + "/" == b + "/" {
      assert a == (a + "/")[..|a|] && b == (b + "/")[..|b|];
    }
  }

  /** The queued folders, in any duplicate-free order, have distinct
      directories: each is a user folder. */
  lemma QueuedFoldersDistinct(fs: FileSystem, s: Sink, users: seq<UserId>, m: ChunkMap, nameOf: NameOf,
                              base: string, order: seq<string>)
    requires forall i, j :: 0 <= i < j < |order| ==> order[i] != order[j]
    requires forall i :: 0 <= i < |order| ==> order[i] in SaveChunks(fs, s, users, m, nameOf, base).folders
    ensures DistinctDirs(order)
  {
    SavedFolders(fs, s, users, m, nameOf, base);
    forall i | 0 <= i < |order|
      ensures DirPrefix(order[i]) == order[i] + "/"
    {
      assert order[i] in SaveChunks(fs, s, users, m, nameOf, base).folders;
      var k :| 0 <= k < |users| && Saves(s, nameOf, users[k]) && order[i] == FolderOf(base, nameOf, users[k]);
    }
    forall i, j | 0 <= i < |order| && 0 <= j < |order| && i != j
      ensures DirPrefix(order[i]) != DirPrefix(order[j])
    {
      SlashAppendInjective(order[i], order[j]);
    }
  }

  /** A strictly sorted list has no repeats. */
  lemma SortedDistinct(xs: seq<string>)
    requires StrictlySorted(xs)
    ensures forall i, j :: 0 <= i < j < |xs| ==> xs[i] != xs[j]
  {
    forall i, j | 0 <= i < j < |xs|
      ensures xs[i] != xs[j]
    {
      LexLessIrreflexive(xs[i]);
    }
  }

  /** The folders in the order they are merged have distinct directories. */
  lemma MergeOrderDistinct(fs: FileSystem, s: Sink, m: ChunkMap, nameOf: NameOf, base: string)
    ensures DistinctDirs(SortSet(SaveChunks(fs, s, s.order, m, nameOf, base).folders))
  {
    var saved := SaveChunks(fs, s, s.order, m, nameOf, base);
    var order := SortSet(saved.folders);
    SortSetSorted(saved.folders);
    SortedDistinct(order);
    QueuedFoldersDistinct(fs, s, s.order, m, nameOf, base, order);
  }

  /** The folder of a user who saved a chunk is queued for merging. */
  lemma SaverFolderQueued(fs: FileSystem, s: Sink, m: ChunkMap, nameOf: NameOf, base: string, u: UserId)
    requires u in s.order && Saves(s, nameOf, u)
    ensures FolderOf(base, nameOf, u) in SortSet(SaveChunks(fs, s, s.order, m, nameOf, base).folders)
  {
    SavedFolders(fs, s, s.order, m, nameOf, base);
    var k :| 0 <= k < |s.order| && s.order[k] == u;
  }

  /** The folder of a user who saved a chunk ends up as one merge of it on the
      disk right after the save loop. */
  lemma SaverFolderMerged(fs: FileSystem, s: Sink, m: ChunkMap, nameOf: NameOf, base: string,
                          ffmpeg: Transcoder, u: UserId)
    requires u in s.order && Saves(s, nameOf, u)
    ensures SameIn(RecordingFinished(fs, s, m, nameOf, base, ffmpeg),
                   Merge(SaveChunks(fs, s, s.order, m, nameOf, base).fs, FolderOf(base, nameOf, u), ffmpeg).fs,
                   FolderOf(base, nameOf, u))
  {
    var saved := SaveChunks(fs, s, s.order, m, nameOf, base);
    MergeOrderDistinct(fs, s, m, nameOf, base);
    SaverFolderQueued(fs, s, m, nameOf, base, u);
    MergeAllAt(saved.fs, SortSet(saved.folders), FolderOf(base, nameOf, u), ffmpeg);
  }

  /** Every user who saved a chunk has no chunk file left in their folder once
      the callback is done, whatever ffmpeg did. */
  lemma RecordingLeavesNoChunks(fs: FileSystem, s: Sink, m: ChunkMap, nameOf: NameOf, base: string,
                                ffmpeg: Transcoder, u: UserId)
    requires u in s.order && Saves(s, nameOf, u)
    ensures ChunkSet(RecordingFinished(fs, s, m, nameOf, base, ffmpeg), FolderOf(base, nameOf, u)) == {}
  {
    var saved := SaveChunks(fs, s, s.order, m, nameOf, base);
    var f := FolderOf(base, nameOf, u);
    SaverFolderMerged(fs, s, m, nameOf, base, ffmpeg, u);
    SameInSameInputs(RecordingFinished(fs, s, m, nameOf, base, ffmpeg), Merge(saved.fs, f, ffmpeg).fs, f);
    if ChunkSet(saved.fs, f) != {} {
      MergeLeavesNoChunks(saved.fs, f, ffmpeg);
    }
  }

  /** The bytes a user saved are among the inputs ffmpeg concatenates for
      their folder, unless their name starts with '.', which the chunk glob
      skips. */
  lemma SavedChunkIsMergeInput(fs: FileSystem, s: Sink, m: ChunkMap, nameOf: NameOf, base: string, u: UserId)
    requires u in s.order && Saves(s, nameOf, u)
    requires |UserName(nameOf, u)| == 0 || UserName(nameOf, u)[0] != '.'
    ensures ChunkSet(SaveChunks(fs, s, s.order, m, nameOf, base).fs, FolderOf(base, nameOf, u)) != {}
    ensures s.audio[u] in MergeInputs(SaveChunks(fs, s, s.order, m, nameOf, base).fs, FolderOf(base, nameOf, u))
  {
    var saved := SaveChunks(fs, s, s.order, m, nameOf, base);
    SavedChunkGlobbed(fs, s, m, nameOf, base, u);
    ChunkIsMergeInput(saved.fs, FolderOf(base, nameOf, u), ChunkPath(base, m, nameOf, u));
  }

  /** The chunk a user saved is matched by the glob of their folder. */
  lemma SavedChunkGlobbed(fs: FileSystem, s: Sink, m: ChunkMap, nameOf: NameOf, base: string, u: UserId)
    requires u in s.order && Saves(s, nameOf, u)
    requires |UserName(nameOf, u)| == 0 || UserName(nameOf, u)[0] != '.'
    ensures var saved := SaveChunks(fs, s, s.order, m, nameOf, base);
            && ChunkPath(base, m, nameOf, u) in ChunkSet(saved.fs, FolderOf(base, nameOf, u))
            && saved.fs[ChunkPath(base, m, nameOf, u)] == s.audio[u]
  {
    SavedChunkOf(fs, s, s.order, m, nameOf, base, u);
    ChunkPathInFolder(base, m, nameOf, u);
    ChunkFileNameMatches(UserName(nameOf, u), ChunkNumber(m, u));
  }

  /** The archive of a saving user's folder afterwards is exactly what ffmpeg
      wrote from the merge inputs (so it holds the new chunk's bytes when
      ffmpeg concatenates), and is missing when ffmpeg wrote nothing. */
  lemma RecordingArchivesChunk(fs: FileSystem, s: Sink, m: ChunkMap, nameOf: NameOf, base: string,
                               ffmpeg: Transcoder, u: UserId)
    requires u in s.order && Saves(s, nameOf, u)
    requires |UserName(nameOf, u)| == 0 || UserName(nameOf, u)[0] != '.'
    ensures MasterPath(FolderOf(base, nameOf, u)) in RecordingFinished(fs, s, m, nameOf, base, ffmpeg)
            <==> ffmpeg(MergeInputs(SaveChunks(fs, s, s.order, m, nameOf, base).fs, FolderOf(base, nameOf, u))).output.Some?
    ensures MasterPath(FolderOf(base, nameOf, u)) in RecordingFinished(fs, s, m, nameOf, base, ffmpeg) ==>
              RecordingFinished(fs, s, m, nameOf, base, ffmpeg)[MasterPath(FolderOf(base, nameOf, u))]
              == ffmpeg(MergeInputs(SaveChunks(fs, s, s.order, m, nameOf, base).fs, FolderOf(base, nameOf, u))).output.value
  {
    var saved := SaveChunks(fs, s, s.order, m, nameOf, base);
    var f := FolderOf(base, nameOf, u);
    SavedChunkIsMergeInput(fs, s, m, nameOf, base, u);
    SaverFolderMerged(fs, s, m, nameOf, base, ffmpeg, u);
    MergeWritesArchive(saved.fs, f, ffmpeg);
    FixedFilesAreNotChunks(saved.fs, f);
  }

  /** Different users have different folders. */
  lemma FolderOfInjective(base: string, nameOf: NameOf, u: UserId, v: UserId)
    ensures FolderOf(base, nameOf, u) == FolderOf(base, nameOf, v) ==> u == v
  {
    if FolderOf(base, nameOf, u) == FolderOf(base, nameOf, v) {
      UserFolderInjective(base, u, UserName(nameOf, u), v, UserName(nameOf, v));
    }
  }

  /** Facts behind `RecordingSkipsSilentUser`: the folders of the users who
      save are all other than the silent user's. */
  lemma SaversElsewhere(s: Sink, users: seq<UserId>, m: ChunkMap, nameOf: NameOf, base: string, u: UserId)
    requires !Saves(s, nameOf, u)
    ensures forall i :: 0 <= i < |users| && Saves(s, nameOf, users[i]) ==>
              DirPrefix(FolderOf(base, nameOf, users[i])) != DirPrefix(FolderOf(base, nameOf, u))
              && !InFolder(ChunkPath(base, m, nameOf, users[i]), FolderOf(base, nameOf, u))
  {
    var f := FolderOf(base, nameOf, u);
    forall i | 0 <= i < |users| && Saves(s, nameOf, users[i])
      ensures DirPrefix(FolderOf(base, nameOf, users[i])) != DirPrefix(f)
      ensures !InFolder(ChunkPath(base, m, nameOf, users[i]), f)
    {
      var v := users[i];
      FolderOfInjective(base, nameOf, u, v);
      SlashAppendInjective(FolderOf(base, nameOf, v), f);
      ChunkPathInFolder(base, m, nameOf, v);
      DisjointFolders(FolderOf(base, nameOf, v), f);
    }
  }

  /** The save loop writes nothing into a silent user's folder and does not
      queue it. */
  lemma SaveSkipsSilentUser(fs: FileSystem, s: Sink, users: seq<UserId>, m: ChunkMap, nameOf: NameOf,
                            base: string, u: UserId)
    requires !Saves(s, nameOf, u)
    ensures FolderOf(base, nameOf, u) !in SaveChunks(fs, s, users, m, nameOf, base).folders
    ensures SameIn(fs, SaveChunks(fs, s, users, m, nameOf, base).fs, FolderOf(base, nameOf, u))
    ensures forall g :: g in SaveChunks(fs, s, users, m, nameOf, base).folders ==>
              DirPrefix(g) != DirPrefix(FolderOf(base, nameOf, u))
  {
    var saved := SaveChunks(fs, s, users, m, nameOf, base);
    var f := FolderOf(base, nameOf, u);
    SavedFolders(fs, s, users, m, nameOf, base);
    SaveFrame(fs, s, users, m, nameOf, base);
    SaversElsewhere(s, users, m, nameOf, base, u);
    forall k | InFolder(k, f)
      ensures (k in fs <==> k in saved.fs) && (k in fs ==> fs[k] == saved.fs[k])
    {
    }
  }

  /** A user whose audio is empty (or whose name cannot be a file name) gets
      no chunk, their folder is not merged, and nothing in it changes. */
  lemma RecordingSkipsSilentUser(fs: FileSystem, s: Sink, m: ChunkMap, nameOf: NameOf, base: string,
                                 ffmpeg: Transcoder, u: UserId)
    requires !Saves(s, nameOf, u)
    ensures FolderOf(base, nameOf, u) !in SaveChunks(fs, s, s.order, m, nameOf, base).folders
    ensures SameIn(fs, RecordingFinished(fs, s, m, nameOf, base, ffmpeg), FolderOf(base, nameOf, u))
  {
    var saved := SaveChunks(fs, s, s.order, m, nameOf, base);
    var f := FolderOf(base, nameOf, u);
    SaveSkipsSilentUser(fs, s, s.order, m, nameOf, base, u);
    var order := SortSet(saved.folders);
    forall i | 0 <= i < |order|
      ensures DirPrefix(order[i]) != DirPrefix(f)
    {
      assert order[i] in saved.folders;
    }
    MergeAllElsewhere(saved.fs, order, f, ffmpeg);
  }

  /** A user whose name starts with '.' writes a chunk the glob never matches:
      it is not merged and stays on disk as written. */
  lemma DotNamedChunkStays(fs: FileSystem, s: Sink, m: ChunkMap, nameOf: NameOf, base: string,
                           ffmpeg: Transcoder, u: UserId)
    requires u in s.order && Saves(s, nameOf, u)
    requires |UserName(nameOf, u)| > 0 && UserName(nameOf, u)[0] == '.'
    ensures ChunkPath(base, m, nameOf, u) in RecordingFinished(fs, s, m, nameOf, base, ffmpeg)
    ensures RecordingFinished(fs, s, m, nameOf, base, ffmpeg)[ChunkPath(base, m, nameOf, u)] == s.audio[u]
  {
    var saved := SaveChunks(fs, s, s.order, m, nameOf, base);
    var f := FolderOf(base, nameOf, u);
    var p := ChunkPath(base, m, nameOf, u);
    var d := DirPrefix(f);
    SavedChunkOf(fs, s, s.order, m, nameOf, base, u);
    ChunkPathInFolder(base, m, nameOf, u);
    assert p[|d|] == '.';
    assert p !in ChunkSet(saved.fs, f);
    FixedFilesAreNotChunks(saved.fs, f);
    JoinIsEntry(f, MASTER_NAME);
    JoinIsEntry(f, TEMP_NAME);
    JoinIsEntry(f, LIST_NAME);
    assert MasterPath(f)[|d|] == 'F' && TempPath(f)[|d|] == '_' && ListPath(f)[|d|] == 'f';
    MergeKeepsOtherFiles(saved.fs, f, ffmpeg);
    SaverFolderMerged(fs, s, m, nameOf, base, ffmpeg, u);
  }

  /** With the always-empty chunk-number map the monitor hands over, every
      chunk is named `<user>_part1.mp3`. */
  lemma EveryChunkIsPartOne(base: string, nameOf: NameOf, u: UserId)
    requires '/' !in UserName(nameOf, u)
    ensures EntryName(ChunkPath(base, map[], nameOf, u), FolderOf(base, nameOf, u)) == UserName(nameOf, u) + "_part1.mp3"
  {
    ChunkPathInFolder(base, map[], nameOf, u);
    assert NatToString(1) == "1";
  }

  /** Part 10 of a user's chunks is smaller, as a string, than part 2. */
  lemma PartTenLessThanPartTwo(folder: string, name: string)
    requires '/' !in name
    ensures LexLess(PathJoin(folder, ChunkFileName(name, 10)), PathJoin(folder, ChunkFileName(name, 2)))
  {
    var pre := DirPrefix(folder) + name + "_part";
    assert PathJoin(folder, ChunkFileName(name, 10)) == pre + "10.mp3" by {
      ChunkPathOfPart(folder, name, 10, "10");
    }
    assert PathJoin(folder, ChunkFileName(name, 2)) == pre + "2.mp3" by {
      ChunkPathOfPart(folder, name, 2, "2");
    }
    assert LexLess("10.mp3", "2.mp3");
    LexLessCommonPrefix(pre, "10.mp3", "2.mp3");
  }

  /** The chunk path of part `n`, spelled out. */
  lemma ChunkPathOfPart(folder: string, name: string, n: nat, digits: string)
    requires '/' !in name && NatToString(n) == digits
    ensures PathJoin(folder, ChunkFileName(name, n)) == DirPrefix(folder) + name + "_part" + digits + ".mp3"
  {
    ChunkFileNameIsPlain(name, n);
    assert ChunkFileName(name, n)[0] != '/';
  }

  /** Chunks are merged in string order, not numeric order: part 10 of a user
      goes into the archive before part 2. */
  lemma PartTenBeforePartTwo(fs: FileSystem, folder: string, name: string)
    requires '/' !in name && (|name| == 0 || name[0] != '.')
    requires PathJoin(folder, ChunkFileName(name, 10)) in fs && PathJoin(folder, ChunkFileName(name, 2)) in fs
    ensures PathJoin(folder, ChunkFileName(name, 10)) in ListChunks(fs, folder)
    ensures PathJoin(folder, ChunkFileName(name, 2)) in ListChunks(fs, folder)
    ensures forall i, j :: (0 <= i < |ListChunks(fs, folder)| && 0 <= j < |ListChunks(fs, folder)|
                            && ListChunks(fs, folder)[i] == PathJoin(folder, ChunkFileName(name, 10))
                            && ListChunks(fs, folder)[j] == PathJoin(folder, ChunkFileName(name, 2))) ==> i < j
  {
    var p10 := PathJoin(folder, ChunkFileName(name, 10));
    var p2 := PathJoin(folder, ChunkFileName(name, 2));
    PartTenLessThanPartTwo(folder, name);
    ChunkFileNameIsPlain(name, 10);
    ChunkFileNameIsPlain(name, 2);
    JoinIsEntry(folder, ChunkFileName(name, 10));
    JoinIsEntry(folder, ChunkFileName(name, 2));
    ChunkFileNameMatches(name, 10);
    ChunkFileNameMatches(name, 2);
    assert p10 in ChunkSet(fs, folder) && p2 in ChunkSet(fs, folder);
    ListChunksMembers(fs, folder);
    ListChunksSorted(fs, folder);
    var xs := ListChunks(fs, folder);
    forall i, j | 0 <= i < |xs| && 0 <= j < |xs| && xs[i] == p10 && xs[j] == p2
      ensures i < j
    {
      SortedPositions(xs, i, j);
    }
  }
}

=== FILE: sink.dfy ===
/** `WhitelistMP3Sink.write` (app.py:148-164): per-user audio buffers that
    only whitelisted users can create or grow. The sink's `audio_data` is a
    Python dict, so its iteration order (insertion order) is kept alongside the
    buffers. */
module Sink {
  import opened Common

  datatype Sink = Sink(order: seq<UserId>, audio: map<UserId, Bytes>)

  /** A fresh sink, as created by `WhitelistMP3Sink()`. */
  const Empty: Sink := Sink([], map[])

  /** `order` lists each buffered user once, in the order of their entries. */
  predicate Valid(s: Sink) {
    && (forall i, j :: 0 <= i < j < |s.order| ==> s.order[i] != s.order[j])
    && (forall i :: 0 <= i < |s.order| ==> s.order[i] in s.audio)
    && (forall u :: u in s.audio ==> u in s.order)
  }

  /** The user's buffer, empty when there is no entry. */
  function Buffer(s: Sink, u: UserId): Bytes {
    if u in s.audio then s.audio[u] else []
  }

  /** One audio frame from the voice connection. */
  datatype Frame = Frame(user: UserId, data: Bytes)

  /** `write(data, user)`: a frame is dropped when the whitelist is empty or
      lacks the user; otherwise it is appended to the user's buffer, which is
      created (at the end of the dict order) on first use. */
  function Write(s: Sink, allowed: set<UserId>, f: Frame): (r: Sink)
    ensures |allowed| == 0 || f.user !in allowed ==> r == s
    ensures f.user in allowed ==> r.audio == s.audio[f.user := Buffer(s, f.user) + f.data]
    ensures f.user in allowed && f.user !in s.audio ==> r.order == s.order + [f.user]
    ensures f.user in s.audio ==> r.order == s.order
    ensures Valid(s) ==> Valid(r)
  {
    if |allowed| == 0 || f.user !in allowed then s
    else
      var s1 := if f.user !in s.audio then Sink(s.order + [f.user], s.audio[f.user := []]) else s;
      Sink(s1.order, s1.audio[f.user := s1.audio[f.user] + f.data])
  }

  /** The sink after a recording has received `frames`, in arrival order. */
  function WriteAll(s: Sink, allowed: set<UserId>, frames: seq<Frame>): Sink
    decreases |frames|
  {
    if |frames| == 0 then s else WriteAll(Write(s, allowed, frames[0]), allowed, frames[1..])
  }

  /** Reference: the bytes of every frame of `u` in arrival order. */
  function FramesOf(frames: seq<Frame>, u: UserId): Bytes {
    if |frames| == 0 then []
    else (if frames[0].user == u then frames[0].data else []) + FramesOf(frames[1..], u)
  }

  lemma {:induction false} FramesOfAppend(frames: seq<Frame>, f: Frame, u: UserId)
    ensures FramesOf(frames + [f], u) == FramesOf(frames, u) + (if f.user == u then f.data else [])
  {
    if |frames| == 0 {
      assert frames + [f] == [f];
    } else {
      var head := if frames[0].user == u then frames[0].data else [];
      assert (frames + [f])[0] == frames[0];
      assert (frames + [f])[1..] == frames[1..] + [f];
      assert FramesOf(frames + [f], u) == head + FramesOf(frames[1..] + [f], u);
      FramesOfAppend(frames[1..], f, u);
      assert FramesOf(frames, u) == head + FramesOf(frames[1..], u);
    }
  }

  lemma {:induction false} WriteAllAppend(s: Sink, allowed: set<UserId>, frames: seq<Frame>, f: Frame)
    ensures WriteAll(s, allowed, frames + [f]) == Write(WriteAll(s, allowed, frames), allowed, f)
    decreases |frames|
  {
    if |frames| == 0 {
      assert frames + [f] == [f];
    } else {
      assert (frames + [f])[1..] == frames[1..] + [f];
      WriteAllAppend(Write(s, allowed, frames[0]), allowed, frames[1..], f);
    }
  }

  /** Recording into a fresh sink: a whitelisted user's buffer is exactly the
      in-order concatenation of all their frames; a user gets an entry iff they
      are whitelisted and sent at least one frame; the dict order stays a
      duplicate-free listing of the entries. */
  lemma RecordedAudio(allowed: set<UserId>, frames: seq<Frame>)
    ensures Valid(WriteAll(Empty, allowed, frames))
    ensures forall u :: u in allowed ==> Buffer(WriteAll(Empty, allowed, frames), u) == FramesOf(frames, u)
    ensures forall u :: u in WriteAll(Empty, allowed, frames).audio <==>
                          u in allowed && exists i :: 0 <= i < |frames| && frames[i].user == u
  {
    RecordedValid(allowed, frames);
    forall u | u in allowed
      ensures Buffer(WriteAll(Empty, allowed, frames), u) == FramesOf(frames, u)
    {
      RecordedBuffer(allowed, frames, u);
    }
    forall u
      ensures u in WriteAll(Empty, allowed, frames).audio <==>
                u in allowed && exists i :: 0 <= i < |frames| && frames[i].user == u
    {
      RecordedEntry(allowed, frames, u);
    }
  }

  lemma {:induction false} RecordedValid(allowed: set<UserId>, frames: seq<Frame>)
    ensures Valid(WriteAll(Empty, allowed, frames))
    decreases |frames|
  {
    if |frames| > 0 {
      var init := frames[..|frames| - 1];
      var f := frames[|frames| - 1];
      assert frames == init + [f];
      RecordedValid(allowed, init);
      WriteAllAppend(Empty, allowed, init, f);
    }
  }

  lemma {:induction false} RecordedBuffer(allowed: set<UserId>, frames: seq<Frame>, u: UserId)
    requires u in allowed
    ensures Buffer(WriteAll(Empty, allowed, frames), u) == FramesOf(frames, u)
    decreases |frames|
  {
    if |frames| > 0 {
      var init := frames[..|frames| - 1];
      var f := frames[|frames| - 1];
      assert frames == init + [f];
      RecordedBuffer(allowed, init, u);
      WriteAllAppend(Empty, allowed, init, f);
      FramesOfAppend(init, f, u);
    }
  }

  lemma {:induction false} RecordedEntry(allowed: set<UserId>, frames: seq<Frame>, u: UserId)
    ensures u in WriteAll(Empty, allowed, frames).audio <==>
              u in allowed && exists i :: 0 <= i < |frames| && frames[i].user == u
    decreases |frames|
  {
    if |frames| > 0 {
      var init := frames[..|frames| - 1];
      var f := frames[|frames| - 1];
      assert frames == init + [f];
      RecordedEntry(allowed, init, u);
      WriteAllAppend(Empty, allowed, init, f);
      if u in allowed && exists i :: 0 <= i < |frames| && frames[i].user == u {
        var i :| 0 <= i < |frames| && frames[i].user == u;
        if i < |init| {
          assert init[i].user == u;
        }
      }
      if exists i :: 0 <= i < |init| && init[i].user == u {
        var i :| 0 <= i < |init| && init[i].user == u;
        assert frames[i].user == u;
      }
    }
  }

  /** Frames from other users never touch a user's buffer. */
  lemma OthersUnchanged(s: Sink, allowed: set<UserId>, f: Frame, u: UserId)
    requires u != f.user
    ensures Buffer(Write(s, allowed, f), u) == Buffer(s, u)
    ensures u in Write(s, allowed, f).audio <==> u in s.audio
  {
  }
}

=== FILE: storage.dfy ===
/** Saving a finished recording and folding chunks into the per-user archive:
    `recording_finished` (app.py:168-207) and `merge_user_audio`
    (app.py:64-98). The disk is a map from path to contents; ffmpeg is a
    parameter. */
module Storage {
  import opened Common
  import opened Text
  import opened Paths
  import opened LexOrder

  type FileSystem = map<string, Bytes>

  /** What one ffmpeg invocation reports and leaves behind: its success flag
      and the contents of the output file, if it wrote one. */
  datatype TranscodeRun = TranscodeRun(succeeded: bool, output: Option<Bytes>)

  /** ffmpeg in concat mode, given the contents of the listed files in order. */
  type Transcoder = seq<Bytes> -> TranscodeRun

  /** The archive, its temporary name and the concat list file of a folder. */
  function MasterPath(folder: string): string { PathJoin(folder, MASTER_NAME) }
  function TempPath(folder: string): string { PathJoin(folder, TEMP_NAME) }
  function ListPath(folder: string): string { PathJoin(folder, LIST_NAME) }

  /** `glob.glob(os.path.join(folder, "*_part*.mp3"))`, as a set. */
  function ChunkSet(fs: FileSystem, folder: string): set<string> {
    set k | k in fs && InFolder(k, folder) && MatchesChunkPattern(EntryName(k, folder))
  }

  /** `sorted(glob.glob(...))`: the chunk paths in string order. */
  ghost function ListChunks(fs: FileSystem, folder: string): (r: seq<string>)
    ensures forall i :: 0 <= i < |r| ==> r[i] in fs
  {
    var r := SortSet(ChunkSet(fs, folder));
    assert forall i :: 0 <= i < |r| ==> r[i] in ChunkSet(fs, folder);
    r
  }

  /** The chunk list is in strictly increasing string order. */
  lemma ListChunksSorted(fs: FileSystem, folder: string)
    ensures StrictlySorted(ListChunks(fs, folder))
  {
    SortSetSorted(ChunkSet(fs, folder));
  }

  /** The chunk list holds exactly the globbed paths. */
  lemma ListChunksMembers(fs: FileSystem, folder: string)
    ensures forall k :: k in ListChunks(fs, folder) <==> k in ChunkSet(fs, folder)
  {
  }

  /** The contents of the listed files, in list order. */
  function Contents(fs: FileSystem, paths: seq<string>): (r: seq<Bytes>)
    requires forall i :: 0 <= i < |paths| ==> paths[i] in fs
    ensures |r| == |paths|
    ensures forall i :: 0 <= i < |paths| ==> r[i] == fs[paths[i]]
  {
    if |paths| == 0 then [] else [fs[paths[0]]] + Contents(fs, paths[1..])
  }

  /** Reference for what ffmpeg is asked to concatenate: the existing archive
      first, then every chunk in string order. */
  ghost function MergeInputs(fs: FileSystem, folder: string): seq<Bytes> {
    var master := MasterPath(folder);
    (if master in fs then [fs[master]] else []) + Contents(fs, ListChunks(fs, folder))
  }

  /** The bytes of every globbed chunk are among ffmpeg's inputs. */
  lemma ChunkIsMergeInput(fs: FileSystem, folder: string, p: string)
    requires p in ChunkSet(fs, folder)
    ensures ChunkSet(fs, folder) != {}
    ensures fs[p] in MergeInputs(fs, folder)
  {
    var chunks := ListChunks(fs, folder);
    ListChunksMembers(fs, folder);
    var j :| 0 <= j < |chunks| && chunks[j] == p;
    var tail := Contents(fs, chunks);
    assert tail[j] == fs[p];
    var head := if MasterPath(folder) in fs then [fs[MasterPath(folder)]] else [];
    assert MergeInputs(fs, folder) == head + tail;
    assert (head + tail)[|head| + j] == fs[p];
  }

  /** Helper facts: the merge's own files are entries of the folder that the
      chunk glob never matches. */
  lemma FixedFilesAreNotChunks(fs: FileSystem, folder: string)
    ensures InFolder(MasterPath(folder), folder) && InFolder(TempPath(folder), folder)
            && InFolder(ListPath(folder), folder)
    ensures MasterPath(folder) != TempPath(folder) && MasterPath(folder) != ListPath(folder)
            && TempPath(folder) != ListPath(folder)
    ensures MasterPath(folder) !in ChunkSet(fs, folder) && TempPath(folder) !in ChunkSet(fs, folder)
            && ListPath(folder) !in ChunkSet(fs, folder)
  {
    JoinIsEntry(folder, MASTER_NAME);
    JoinIsEntry(folder, TEMP_NAME);
    JoinIsEntry(folder, LIST_NAME);
    FixedNamesAreNotChunks();
    assert MASTER_NAME[0] != TEMP_NAME[0] && MASTER_NAME[0] != LIST_NAME[0] && TEMP_NAME[0] != LIST_NAME[0];
    var d := DirPrefix(folder);
    assert MasterPath(folder)[|d|] == 'F' && TempPath(folder)[|d|] == '_' && ListPath(folder)[|d|] == 'f';
  }

  /** The result of `merge_user_audio`: the disk afterwards and the list of
      files handed to ffmpeg (empty when it returned early). */
  datatype MergeResult = MergeResult(fs: FileSystem, concatList: seq<string>)

  /** `os.rename(master_file, temp_master)` when the archive exists. */
  function RenameMaster(fs: FileSystem, folder: string): (r: FileSystem)
    ensures MasterPath(folder) in fs ==> MasterPath(folder) !in r
    ensures MasterPath(folder) in fs ==> TempPath(folder) in r && r[TempPath(folder)] == fs[MasterPath(folder)]
    ensures forall k :: k in fs && k != MasterPath(folder) && k != TempPath(folder) ==> k in r && r[k] == fs[k]
    ensures forall k :: k in r ==> k in fs || k == TempPath(folder)
  {
    var master := MasterPath(folder);
    if master in fs then (fs - {master})[TempPath(folder) := fs[master]] else fs
  }

  /** The ffmpeg output lands at the archive's path when there is one. */
  function WriteOutput(fs: FileSystem, path: string, output: Option<Bytes>): (r: FileSystem)
    ensures output.Some? ==> path in r && r[path] == output.value
    ensures output.None? ==> r == fs
    ensures forall k :: k != path ==> (k in r <==> k in fs) && (k in fs ==> r[k] == fs[k])
  {
    if output.Some? then fs[path := output.value] else fs
  }

  /** The order of the concat list: the renamed archive first when there was
      one, then the chunks in string order. */
  ghost function ConcatList(fs: FileSystem, folder: string): seq<string> {
    (if MasterPath(folder) in fs then [TempPath(folder)] else []) + ListChunks(fs, folder)
  }

  lemma {:induction false} ContentsAppend(fs: FileSystem, a: seq<string>, b: seq<string>)
    requires forall i :: 0 <= i < |a| ==> a[i] in fs
    requires forall i :: 0 <= i < |b| ==> b[i] in fs
    ensures Contents(fs, a + b) == Contents(fs, a) + Contents(fs, b)
  {
    var ab := a + b;
    assert forall i :: 0 <= i < |ab| ==> ab[i] in fs;
    assert Contents(fs, ab) == Contents(fs, a) + Contents(fs, b);
  }

  /** Two disks that agree on the listed files give the same contents. */
  lemma ContentsAgree(fs: FileSystem, fs2: FileSystem, paths: seq<string>)
    requires forall i :: 0 <= i < |paths| ==> paths[i] in fs && paths[i] in fs2 && fs[paths[i]] == fs2[paths[i]]
    ensures Contents(fs, paths) == Contents(fs2, paths)
  {
  }

  /** The chunks are untouched by the rename. */
  lemma ChunksSurviveRename(fs: FileSystem, folder: string)
    ensures forall i :: 0 <= i < |ListChunks(fs, folder)| ==>
              && ListChunks(fs, folder)[i] in fs
              && ListChunks(fs, folder)[i] in RenameMaster(fs, folder)
              && RenameMaster(fs, folder)[ListChunks(fs, folder)[i]] == fs[ListChunks(fs, folder)[i]]
  {
    var chunks := ListChunks(fs, folder);
    FixedFilesAreNotChunks(fs, folder);
    forall i | 0 <= i < |chunks|
      ensures chunks[i] in fs && chunks[i] != MasterPath(folder) && chunks[i] != TempPath(folder)
    {
      assert chunks[i] in ChunkSet(fs, folder);
    }
  }

  /** Every listed file exists once the archive is renamed. */
  lemma ConcatListPresent(fs: FileSystem, folder: string)
    ensures forall i :: 0 <= i < |ConcatList(fs, folder)| ==> ConcatList(fs, folder)[i] in RenameMaster(fs, folder)
  {
    var chunks := ListChunks(fs, folder);
    var fs1 := RenameMaster(fs, folder);
    var list := ConcatList(fs, folder);
    forall i | 0 <= i < |list|
      ensures list[i] in fs1
    {
      ListedFilePresent(fs, folder, i);
    }
  }

  /** One entry of the concat list exists once the archive is renamed. */
  lemma ListedFilePresent(fs: FileSystem, folder: string, i: nat)
    requires i < |ConcatList(fs, folder)|
    ensures ConcatList(fs, folder)[i] in RenameMaster(fs, folder)
  {
    if MasterPath(folder) !in fs {
      ConcatListWithoutArchive(fs, folder);
      ListedChunkPresent(fs, folder, i);
    } else if i == 0 {
      ConcatListWithArchive(fs, folder);
      ListedArchivePresent(fs, folder);
    } else {
      ConcatListWithArchive(fs, folder);
      ListedChunkAfterArchive(fs, folder, i);
    }
  }

  lemma ListedArchivePresent(fs: FileSystem, folder: string)
    requires MasterPath(folder) in fs
    requires ConcatList(fs, folder) == [TempPath(folder)] + ListChunks(fs, folder)
    ensures ConcatList(fs, folder)[0] in RenameMaster(fs, folder)
  {
    ArchiveRenamed(fs, folder);
  }

  lemma ListedChunkAfterArchive(fs: FileSystem, folder: string, i: nat)
    requires ConcatList(fs, folder) == [TempPath(folder)] + ListChunks(fs, folder)
    requires 0 < i < |ConcatList(fs, folder)|
    ensures ConcatList(fs, folder)[i] in RenameMaster(fs, folder)
  {
    ListedChunkPresent(fs, folder, i - 1);
    ShiftedPresent([TempPath(folder)] + ListChunks(fs, folder), ListChunks(fs, folder), RenameMaster(fs, folder), i);
  }

  lemma ShiftedPresent(list: seq<string>, xs: seq<string>, fs: FileSystem, i: nat)
    requires |list| == |xs| + 1 && list[1..] == xs
    requires 0 < i < |list| && xs[i - 1] in fs
    ensures list[i] in fs
  {
    assert list[i] == list[1..][i - 1];
  }

  lemma ArchiveRenamed(fs: FileSystem, folder: string)
    requires MasterPath(folder) in fs
    ensures TempPath(folder) in RenameMaster(fs, folder)
  {
  }

  lemma ConcatListWithArchive(fs: FileSystem, folder: string)
    requires MasterPath(folder) in fs
    ensures ConcatList(fs, folder) == [TempPath(folder)] + ListChunks(fs, folder)
  {
  }

  lemma ConcatListWithoutArchive(fs: FileSystem, folder: string)
    requires MasterPath(folder) !in fs
    ensures ConcatList(fs, folder) == ListChunks(fs, folder)
  {
  }

  lemma ListedChunkPresent(fs: FileSystem, folder: string, i: nat)
    requires i < |ListChunks(fs, folder)|
    ensures ListChunks(fs, folder)[i] in RenameMaster(fs, folder)
  {
    ChunksSurviveRename(fs, folder);
  }

  /** The listed files hold the old archive's bytes followed by the chunks'
      bytes: the rename touches no chunk. */
  lemma ConcatListContents(fs: FileSystem, folder: string)
    ensures forall i :: 0 <= i < |ConcatList(fs, folder)| ==> ConcatList(fs, folder)[i] in RenameMaster(fs, folder)
    ensures Contents(RenameMaster(fs, folder), ConcatList(fs, folder)) == MergeInputs(fs, folder)
  {
    ConcatListPresent(fs, folder);
    var chunks := ListChunks(fs, folder);
    var fs1 := RenameMaster(fs, folder);
    var master := MasterPath(folder);
    var head := if master in fs then [TempPath(folder)] else [];
    assert ConcatList(fs, folder) == head + chunks;
    assert Contents(fs1, chunks) == Contents(fs, chunks) by {
      ChunksSurviveRename(fs, folder);
      ContentsAgree(fs1, fs, chunks);
    }
    assert Contents(fs1, head) == (if master in fs then [fs[master]] else []) by {
      if master in fs {
        assert Contents(fs1, head) == [fs1[TempPath(folder)]] + Contents(fs1, []);
      }
    }
    assert Contents(fs1, head + chunks) == Contents(fs1, head) + Contents(fs1, chunks) by {
      ChunksSurviveRename(fs, folder);
      ContentsAppend(fs1, head, chunks);
    }
  }

  /** The files removed after ffmpeg ran: the list file, the temporary archive
      (when the archive had been renamed) and every chunk. */
  ghost function Removed(fs: FileSystem, folder: string): set<string> {
    {ListPath(folder)} + (if MasterPath(folder) in fs then {TempPath(folder)} else {}) + ChunkSet(fs, folder)
  }

  /** `os.remove` of each of `paths`. */
  function RemoveFiles(fs: FileSystem, paths: set<string>): (r: FileSystem)
    ensures forall k :: k in r <==> k in fs && k !in paths
    ensures forall k :: k in r ==> r[k] == fs[k]
  {
    fs - paths
  }

  /** The disk after a merge that ran, given what ffmpeg wrote: the archive
      renamed, ffmpeg's output written to the archive's path, and the list
      file, the temporary archive and the chunks removed. */
  ghost function MergedDisk(fs: FileSystem, folder: string, out: Option<Bytes>): FileSystem {
    RemoveFiles(WriteOutput(RenameMaster(fs, folder), MasterPath(folder), out), Removed(fs, folder))
  }

  /** `merge_user_audio(folder)`. With no chunk it returns at once. Otherwise
      an existing archive is renamed to the temporary name and listed first,
      the chunks follow in string order, ffmpeg writes the archive, and then
      the list file, the temporary archive and every chunk are removed whatever
      ffmpeg reported. */
  ghost function Merge(fs: FileSystem, folder: string, ffmpeg: Transcoder): (r: MergeResult)
    ensures ChunkSet(fs, folder) == {} ==> r == MergeResult(fs, [])
    ensures ChunkSet(fs, folder) != {} ==> r.concatList == ConcatList(fs, folder)
    ensures ChunkSet(fs, folder) != {} ==> r.fs == MergedDisk(fs, folder, ffmpeg(MergeInputs(fs, folder)).output)
  {
    if ChunkSet(fs, folder) == {} then
      MergeResult(fs, [])
    else
      var list := ConcatList(fs, folder);
      var fs1 := RenameMaster(fs, folder);
      ConcatListContents(fs, folder);
      var run := ffmpeg(Contents(fs1, list));
      var fs2 := WriteOutput(fs1, MasterPath(folder), run.output);
      MergeResult(RemoveFiles(fs2, Removed(fs, folder)), list)
  }

  /** No chunk of the folder survives the removal. */
  lemma MergedDiskHasNoChunks(fs: FileSystem, folder: string, out: Option<Bytes>)
    ensures ChunkSet(MergedDisk(fs, folder, out), folder) == {}
  {
    var r := MergedDisk(fs, folder, out);
    FixedFilesAreNotChunks(r, folder);
    forall k | k in r
      ensures k !in ChunkSet(r, folder)
    {
      if k != MasterPath(folder) && k != TempPath(folder) {
        assert k in fs && r[k] == fs[k] && k !in ChunkSet(fs, folder);
      }
    }
  }

  /** The archive holds exactly what ffmpeg wrote, if anything. */
  lemma MergedDiskArchive(fs: FileSystem, folder: string, out: Option<Bytes>)
    ensures MasterPath(folder) in MergedDisk(fs, folder, out) <==> out.Some?
    ensures out.Some? ==> MergedDisk(fs, folder, out)[MasterPath(folder)] == out.value
  {
    var fs2 := WriteOutput(RenameMaster(fs, folder), MasterPath(folder), out);
    assert MasterPath(folder) in fs2 <==> out.Some?;
    assert MasterPath(folder) !in Removed(fs, folder) by {
      FixedFilesAreNotChunks(fs, folder);
    }
  }

  /** The list file is removed, and so is the temporary archive when there was
      an archive. */
  lemma MergedDiskDropsWorkFiles(fs: FileSystem, folder: string, out: Option<Bytes>)
    ensures ListPath(folder) !in MergedDisk(fs, folder, out)
    ensures MasterPath(folder) in fs ==> TempPath(folder) !in MergedDisk(fs, folder, out)
  {
    assert ListPath(folder) in Removed(fs, folder);
  }

  /** Any other file is kept as it was. */
  lemma MergedDiskKeeps(fs: FileSystem, folder: string, out: Option<Bytes>, k: string)
    requires k in fs && k != MasterPath(folder) && k != ListPath(folder)
    requires MasterPath(folder) in fs ==> k != TempPath(folder)
    requires k !in ChunkSet(fs, folder)
    ensures k in MergedDisk(fs, folder, out) && MergedDisk(fs, folder, out)[k] == fs[k]
  {
    var fs1 := RenameMaster(fs, folder);
    assert k in fs1 && fs1[k] == fs[k] by {
      if MasterPath(folder) !in fs {
        assert fs1 == fs;
      }
    }
    assert k !in Removed(fs, folder);
  }

  /** Nothing but the archive is new. */
  lemma MergedDiskCreatesOnlyArchive(fs: FileSystem, folder: string, out: Option<Bytes>)
    ensures forall k :: k in MergedDisk(fs, folder, out) ==> k in fs || k == MasterPath(folder)
  {
    var r := MergedDisk(fs, folder, out);
    forall k | k in r
      ensures k in fs || k == MasterPath(folder)
    {
      assert k != TempPath(folder) || MasterPath(folder) !in fs;
    }
  }

  /** After a merge that ran, no chunk is left in the folder, whatever ffmpeg
      did. */
  lemma MergeLeavesNoChunks(fs: FileSystem, folder: string, ffmpeg: Transcoder)
    requires ChunkSet(fs, folder) != {}
    ensures ChunkSet(Merge(fs, folder, ffmpeg).fs, folder) == {}
  {
    MergedDiskHasNoChunks(fs, folder, ffmpeg(MergeInputs(fs, folder)).output);
  }

  /** After a merge that ran, neither the list file nor the temporary archive
      is left behind. */
  lemma MergeRemovesWorkFiles(fs: FileSystem, folder: string, ffmpeg: Transcoder)
    requires ChunkSet(fs, folder) != {}
    ensures ListPath(folder) !in Merge(fs, folder, ffmpeg).fs
    ensures MasterPath(folder) in fs ==> TempPath(folder) !in Merge(fs, folder, ffmpeg).fs
  {
    MergedDiskDropsWorkFiles(fs, folder, ffmpeg(MergeInputs(fs, folder)).output);
  }

  /** After a merge that ran, the archive is exactly what ffmpeg wrote from the
      old archive followed by the chunks, and is missing if it wrote nothing. */
  lemma MergeWritesArchive(fs: FileSystem, folder: string, ffmpeg: Transcoder)
    requires ChunkSet(fs, folder) != {}
    ensures MasterPath(folder) in Merge(fs, folder, ffmpeg).fs <==> ffmpeg(MergeInputs(fs, folder)).output.Some?
    ensures MasterPath(folder) in Merge(fs, folder, ffmpeg).fs ==>
              Merge(fs, folder, ffmpeg).fs[MasterPath(folder)] == ffmpeg(MergeInputs(fs, folder)).output.value
  {
    MergedDiskArchive(fs, folder, ffmpeg(MergeInputs(fs, folder)).output);
  }

  /** ffmpeg's outcome is never consulted: when it writes no archive, the
      folder is left with no archive, no renamed old archive and no chunk, so
      the old archive's and the chunks' bytes are gone. */
  lemma FailedMergeLosesAudio(fs: FileSystem, folder: string, ffmpeg: Transcoder)
    requires ChunkSet(fs, folder) != {} && ffmpeg(MergeInputs(fs, folder)).output.None?
    ensures MasterPath(folder) !in Merge(fs, folder, ffmpeg).fs
    ensures MasterPath(folder) in fs ==> TempPath(folder) !in Merge(fs, folder, ffmpeg).fs
    ensures ChunkSet(Merge(fs, folder, ffmpeg).fs, folder) == {}
  {
    MergeWritesArchive(fs, folder, ffmpeg);
    MergeRemovesWorkFiles(fs, folder, ffmpeg);
    MergeLeavesNoChunks(fs, folder, ffmpeg);
  }

  /** A merge leaves every other file alone, in its folder or elsewhere. */
  lemma MergeKeepsOtherFiles(fs: FileSystem, folder: string, ffmpeg: Transcoder)
    ensures forall k :: k in fs && k != MasterPath(folder) && k != ListPath(folder)
                        && (MasterPath(folder) in fs ==> k != TempPath(folder))
                        && k !in ChunkSet(fs, folder)
                        ==> k in Merge(fs, folder, ffmpeg).fs && Merge(fs, folder, ffmpeg).fs[k] == fs[k]
  {
    if ChunkSet(fs, folder) != {} {
      var out := ffmpeg(MergeInputs(fs, folder)).output;
      forall k | k in fs && k != MasterPath(folder) && k != ListPath(folder)
                 && (MasterPath(folder) in fs ==> k != TempPath(folder))
                 && k !in ChunkSet(fs, folder)
        ensures k in MergedDisk(fs, folder, out) && MergedDisk(fs, folder, out)[k] == fs[k]
      {
        MergedDiskKeeps(fs, folder, out, k);
      }
    }
  }

  /** The archive is the only file a merge can create. */
  lemma MergeCreatesOnlyArchive(fs: FileSystem, folder: string, ffmpeg: Transcoder)
    ensures forall k :: k in Merge(fs, folder, ffmpeg).fs ==> k in fs || k == MasterPath(folder)
  {
    if ChunkSet(fs, folder) != {} {
      MergedDiskCreatesOnlyArchive(fs, folder, ffmpeg(MergeInputs(fs, folder)).output);
    }
  }

  /** Two disks agree on every entry of `folder`. */
  ghost predicate SameIn(fs: FileSystem, fs2: FileSystem, folder: string) {
    forall k :: InFolder(k, folder) ==> (k in fs <==> k in fs2) && (k in fs ==> fs[k] == fs2[k])
  }

  /** What a merge sees of a folder depends only on that folder's entries. */
  lemma SameInSameInputs(fs: FileSystem, fs2: FileSystem, folder: string)
    requires SameIn(fs, fs2, folder)
    ensures ChunkSet(fs, folder) == ChunkSet(fs2, folder)
    ensures MergeInputs(fs, folder) == MergeInputs(fs2, folder)
  {
    assert ChunkSet(fs, folder) == ChunkSet(fs2, folder) by {
      forall k | k in ChunkSet(fs, folder)
        ensures k in ChunkSet(fs2, folder)
      {
      }
      forall k | k in ChunkSet(fs2, folder)
        ensures k in ChunkSet(fs, folder)
      {
      }
    }
    var chunks := ListChunks(fs, folder);
    assert ListChunks(fs2, folder) == chunks;
    forall i | 0 <= i < |chunks|
      ensures chunks[i] in fs && chunks[i] in fs2 && fs[chunks[i]] == fs2[chunks[i]]
    {
      assert chunks[i] in ChunkSet(fs, folder);
    }
    ContentsAgree(fs, fs2, chunks);
    FixedFilesAreNotChunks(fs, folder);
  }

  /** Merging one folder leaves every other folder's entries alone. */
  lemma MergeElsewhere(fs: FileSystem, g: string, folder: string, ffmpeg: Transcoder)
    requires DirPrefix(g) != DirPrefix(folder)
    ensures SameIn(fs, Merge(fs, g, ffmpeg).fs, folder)
  {
    if ChunkSet(fs, g) != {} {
      MergedDiskElsewhere(fs, g, folder, ffmpeg(MergeInputs(fs, g)).output);
    }
  }

  lemma MergedDiskElsewhere(fs: FileSystem, g: string, folder: string, out: Option<Bytes>)
    requires DirPrefix(g) != DirPrefix(folder)
    ensures SameIn(fs, MergedDisk(fs, g, out), folder)
  {
    var r := MergedDisk(fs, g, out);
    DisjointFolders(folder, g);
    FixedFilesAreNotChunks(fs, g);
    MergedDiskCreatesOnlyArchive(fs, g, out);
    forall k | InFolder(k, folder)
      ensures (k in fs <==> k in r) && (k in fs ==> fs[k] == r[k])
    {
      if k in fs {
        assert k !in ChunkSet(fs, g);
        MergedDiskKeeps(fs, g, out, k);
      }
    }
  }

  /** Two disks that agree on a folder still agree on it after the same
      merge steps with the same ffmpeg output. */
  lemma MergedDiskCongruent(fs: FileSystem, fs2: FileSystem, folder: string, out: Option<Bytes>)
    requires SameIn(fs, fs2, folder)
    requires ChunkSet(fs, folder) == ChunkSet(fs2, folder)
    ensures SameIn(MergedDisk(fs, folder, out), MergedDisk(fs2, folder, out), folder)
  {
    FixedFilesAreNotChunks(fs, folder);
    assert Removed(fs, folder) == Removed(fs2, folder);
  }

  /** Merging a folder of two disks that agree on it gives disks that still
      agree on it. */
  lemma MergeCongruent(fs: FileSystem, fs2: FileSystem, folder: string, ffmpeg: Transcoder)
    requires SameIn(fs, fs2, folder)
    ensures SameIn(Merge(fs, folder, ffmpeg).fs, Merge(fs2, folder, ffmpeg).fs, folder)
  {
    SameInSameInputs(fs, fs2, folder);
    if ChunkSet(fs, folder) != {} {
      MergedDiskCongruent(fs, fs2, folder, ffmpeg(MergeInputs(fs, folder)).output);
    }
  }
}

=== FILE: text.dfy ===
/** ASCII character classes and the small string operations the recorder uses:
    `str.strip`, `str.split(',')`, `','.join`, `str(n)` and `int(s)`. */
module Text {

  /** `str.isdigit` restricted to ASCII. */
  predicate IsDigit(c: char) {
    '0' <= c <= '9'
  }

  /** `str.isalnum` restricted to ASCII. */
  predicate IsAlnum(c: char) {
    'a' <= c <= 'z' || 'A' <= c <= 'Z' || IsDigit(c)
  }

  /** The ASCII characters for which `str.isspace` holds: space, \t \n \x0b \x0c \r
      and the separators \x1c..\x1f. */
  predicate IsSpace(c: char) {
    c == ' ' || '\t' <= c <= '\r' || '\U{1C}' <= c <= '\U{1F}'
  }

  predicate AllDigits(s: string) {
    forall i :: 0 <= i < |s| ==> IsDigit(s[i])
  }

  /** `s.isdigit()`: false on the empty string. */
  predicate IsDigits(s: string) {
    |s| > 0 && AllDigits(s)
  }

  // ---------------------------------------------------------------- strip

  function StripLeft(s: string): (r: string)
    ensures |r| <= |s| && r == s[|s| - |r|..]
    ensures forall i :: 0 <= i < |s| - |r| ==> IsSpace(s[i])
    ensures |r| == 0 || !IsSpace(r[0])
  {
    if |s| > 0 && IsSpace(s[0]) then StripLeft(s[1..]) else s
  }

  function StripRight(s: string): (r: string)
    ensures |r| <= |s| && r == s[..|r|]
    ensures forall i :: |r| <= i < |s| ==> IsSpace(s[i])
    ensures |r| == 0 || !IsSpace(r[|r| - 1])
  {
    if |s| > 0 && IsSpace(s[|s| - 1]) then StripRight(s[..|s| - 1]) else s
  }

  /** `r` is the infix of `s` starting at `i`, and everything outside it is
      whitespace. */
  ghost predicate StrippedAt(s: string, r: string, i: int) {
    && 0 <= i <= |s| - |r|
    && r == s[i..i + |r|]
    && (forall k :: 0 <= k < i ==> IsSpace(s[k]))
    && (forall k :: i + |r| <= k < |s| ==> IsSpace(s[k]))
  }

  /** `s.strip()`: the infix of `s` that neither starts nor ends with whitespace,
      obtained by removing only whitespace. */
  function Strip(s: string): (r: string)
    ensures exists i :: StrippedAt(s, r, i)
    ensures |r| == 0 || (!IsSpace(r[0]) && !IsSpace(r[|r| - 1]))
  {
    var l := StripLeft(s);
    var r := StripRight(l);
    assert r == s[|s| - |l|..][..|r|];
    assert StrippedAt(s, r, |s| - |l|);
    r
  }

  /** A string of digits has no surrounding whitespace to strip. */
  lemma StripDigits(s: string)
    requires AllDigits(s)
    ensures Strip(s) == s
  {
    if |s| > 0 {
      assert !IsSpace(s[0]) && !IsSpace(s[|s| - 1]);
    }
  }

  // ---------------------------------------------------------------- split / join

  /** `sep.join(parts)`. */
  function JoinWith(parts: seq<string>, sep: char): string
  {
    if |parts| == 0 then ""
    else if |parts| == 1 then parts[0]
    else parts[0] + [sep] + JoinWith(parts[1..], sep)
  }

  /** A character that is neither the separator nor in any part is not in the
      joined string. */
  lemma {:induction false} JoinWithAvoids(parts: seq<string>, sep: char, c: char)
    requires c != sep
    requires forall i :: 0 <= i < |parts| ==> c !in parts[i]
    ensures c !in JoinWith(parts, sep)
  {
    if |parts| > 1 {
      JoinWithAvoids(parts[1..], sep, c);
      assert c !in parts[0] + [sep];
    }
  }

  /** `s.split(sep)`: the pieces between separators, in order; always at least one
      piece (`"".split(",") == [""]`). */
  function Split(s: string, sep: char): (r: seq<string>)
    ensures |r| >= 1
    ensures forall i :: 0 <= i < |r| ==> sep !in r[i]
    ensures JoinWith(r, sep) == s
  {
    if |s| == 0 then [""]
    else
      var rest := Split(s[1..], sep);
      if s[0] == sep then
        assert ([""] + rest)[1..] == rest;
        [""] + rest
      else
        var r := [[s[0]] + rest[0]] + rest[1..];
        assert r[1..] == rest[1..];
        assert s == [s[0]] + s[1..];
        r
  }

  /** Splitting a string that starts with a separator-free prefix `a`. */
  lemma {:induction false} SplitPrefix(a: string, t: string, sep: char)
    requires sep !in a
    ensures Split(a + t, sep) == [a + Split(t, sep)[0]] + Split(t, sep)[1..]
  {
    if |a| > 0 {
      assert (a + t)[1..] == a[1..] + t;
      SplitPrefix(a[1..], t, sep);
      assert [a[0]] + (a[1..] + Split(t, sep)[0]) == a + Split(t, sep)[0];
    } else {
      assert a + t == t;
      assert a + Split(t, sep)[0] == Split(t, sep)[0];
      assert Split(t, sep) == [Split(t, sep)[0]] + Split(t, sep)[1..];
    }
  }

  /** Splitting undoes joining, provided no part contains the separator. */
  lemma {:induction false} SplitJoin(parts: seq<string>, sep: char)
    requires |parts| >= 1
    requires forall i :: 0 <= i < |parts| ==> sep !in parts[i]
    ensures Split(JoinWith(parts, sep), sep) == parts
  {
    if |parts| == 1 {
      SplitPrefix(parts[0], "", sep);
      assert Split("", sep) == [""];
      assert parts[0] + "" == parts[0];
    } else {
      var tail := JoinWith(parts[1..], sep);
      SplitJoin(parts[1..], sep);
      SplitPrefix(parts[0], [sep] + tail, sep);
      assert ([sep] + tail)[1..] == tail;
      var s := [sep] + tail;
      assert s[0] == sep && s[1..] == tail;
      assert Split(s, sep) == [""] + parts[1..];
      assert Split(s, sep)[0] == "" && Split(s, sep)[1..] == parts[1..];
      assert parts[0] + "" == parts[0];
      assert JoinWith(parts, sep) == parts[0] + s;
      assert parts == [parts[0]] + parts[1..];
    }
  }

  // ---------------------------------------------------------------- decimal

  function DigitChar(d: nat): (c: char)
    requires d < 10
    ensures IsDigit(c)
  {
    (('0' as int) + d) as char
  }

  function DigitValue(c: char): (d: nat)
    requires IsDigit(c)
    ensures d < 10 && DigitChar(d) == c
  {
    (c as int) - ('0' as int)
  }

  /** `str(n)` for a non-negative integer: its decimal digits, no leading zero. */
  function NatToString(n: nat): (r: string)
    ensures IsDigits(r)
    ensures r[0] == '0' ==> n == 0
  {
    if n < 10 then [DigitChar(n)]
    else NatToString(n / 10) + [DigitChar(n % 10)]
  }

  /** `int(s)` for a string of ASCII digits (leading zeros allowed). */
  function ParseNat(s: string): nat
    requires AllDigits(s)
  {
    if |s| == 0 then 0
    else ParseNat(s[..|s| - 1]) * 10 + DigitValue(s[|s| - 1])
  }

  /** Reading back a printed number gives the number. */
  lemma {:induction false} ParseNatToString(n: nat)
    ensures ParseNat(NatToString(n)) == n
  {
    if n >= 10 {
      var s := NatToString(n);
      assert s[..|s| - 1] == NatToString(n / 10);
      ParseNatToString(n / 10);
    }
  }

  lemma NatToStringInjective(a: nat, b: nat)
    requires NatToString(a) == NatToString(b)
    ensures a == b
  {
    ParseNatToString(a);
    ParseNatToString(b);
  }
}
